=== FILE: README.md ===
# Younium client — a Dafny model

A model of the core of the Younium API client (`YouniumClient`, `YouniumToken`,
`YouniumPageResult`) and proofs about it. It covers these parts:

- **Bearer token.** The client keeps one token of its own. It is served while its
  expiry lies more than 30 minutes ahead. Otherwise it is refreshed through the
  pluggable cache hook, whose default calls the issuer. The issuer reads two
  environment-qualified secrets and posts them to `/auth/token`. It then decodes
  the answer field by field. The string fields use Newtonsoft's `Value<string>`,
  and the error list uses `Value<JArray>()?.ToObject<string[]>()`.
- **Request path.** Every request first makes sure of a token. The response text
  is classified: object-shaped text is returned whatever the status. Other text
  must parse and needs a success status, and a value that is not an object is
  wrapped under `"data"`.
- **Create and update.** `CreateAsync` copies the answer's `id` back into the
  posted object. `UpdateAsync` sends a PATCH.
- **Paging.** The client fetches page 1 with `pageNumber=1&pageSize=100` added to
  the query. It then fetches the pages `pageNumber + 1 .. totalPages` that page 1
  announces. These are requested together, collected into a table by page number
  and merged in ascending page order. Finally the client follows the `nextPage`
  cursor until the server ends it. Merging a page overwrites the metadata and the
  links and appends the items.

## How the model is built

Every outside effect is a parameter, so each operation is a pure function:

- the network, as a `Transport` from request to response, and as a page oracle
  from URI to decoded page;
- JSON text parsing, as a `JsonParser` that may fail;
- the date reader, as a `TimeParser` from expiry text to minutes;
- the clock, as `now` in minutes;
- the secret provider;
- the cache hook.

The hook is modelled as a lookup that either returns a cached outcome or returns
`None` to have the issuer called. This makes "the issuer was called" observable.

Exceptions are `Failure` values of `Results.ClientError`. A run of the pager
records the URIs it requested, so the number and order of requests can be stated.
C#'s 32-bit `int` arithmetic in `Enumerable.Range(pageNumber + 1, totalPages - pageNumber)`
is written out with an explicit wrap-around (`Numbers.Wrap32`).

In these places the model follows the code as written:

- `totalPages < pageNumber` after page 1 makes `Enumerable.Range` throw on a
  negative count. The bulk phase is not simply skipped (`Pagination.GetPagesRangeError`).
- A refreshed token replaces the cached one before its access token is checked.
  So a token without an access token is cached although the call fails. If its
  expiry is far ahead, the next call returns it without a refresh
  (`TokenCache.FailedTokenServedLater`).
- An expiry text that does not parse makes `DateTime.Parse` throw. The call
  fails; it does not refresh.
- The issuer is called only when the cache hook has no outcome. The default hook
  never has one, so with it every refresh calls the issuer exactly once.
- The token endpoint's status code is never looked at. Its body must be a JSON
  object.
- The token cache belongs to the client instance, not to the process.

## Model

| member | source | states |
|---|---|---|
| Numbers.Wrap32 | YouniumClient/YouniumClient.cs:96 | unchecked `int` arithmetic: the result is a 32-bit value congruent to the exact one modulo 2^32, equal to it when it fits and off by exactly 2^32 just outside |
| Api.EnvironmentName | YouniumClient/YouniumClient.cs:35 | the environment name is "Prod" or "Sandbox" and names its environment uniquely |
| Api.Origin | YouniumClient/YouniumClient.cs:36 | each environment has its own origin, without a query, from which the environment is recovered |
| Api.EndpointUri | YouniumClient/YouniumClient.cs:68 | an endpoint's URI is written as the origin, '/', the endpoint |
| Api.FilterRoundTrip | YouniumClient/YouniumClient.cs:114-122 | a collection URI built from a name and an optional filter keeps the name in its address and gives back exactly that filter, none when there was none |
| Api.FilterQuery | YouniumClient/YouniumClient.cs:114 | no filter gives no query; a filter gives "?filter=" followed by the filter, which is read back from any URI carrying that query |
| Api.FilterQueryRoundTrip | YouniumClient/YouniumClient.cs:114 | the filter query after an address without '?' is parsed back as the query, and the filter read from it is the one given |
| Uris.ParseUri | YouniumClient/YouniumClient.cs:90 | parsing URI text splits it at the first '?': writing the parts again gives the text, and the address holds no '?' |
| Uris.ParseUriText | YouniumClient/YouniumClient.cs:90 | parsing the text of a URI whose address has no '?' gives that URI back |
| Uris.PageQuery | YouniumClient/YouniumClient.cs:84-86 | the page query extends the original query: "?" and the page parameters for an empty one, otherwise '&' and the page parameters after it; the `UriBuilder.Query` setter it goes through (`Uris.SetQuery`) leaves it '?'-led |
| Uris.PageUri | YouniumClient/YouniumClient.cs:80-88 | the page URI keeps the address and extends the query |
| Uris.PageParametersSplit | YouniumClient/YouniumClient.cs:86 | the appended text is exactly two parameters, page number and page size |
| Uris.PageQueryParameters | YouniumClient/YouniumClient.cs:84-86 | the page query holds the original parameters in order followed by exactly the page number and the page size |
| Uris.PageUriRoundTrip | YouniumClient/YouniumClient.cs:80-88 | reading the page URI back gives the address, page number n and page size 100 |
| Text.IntToString | YouniumClient/YouniumClient.cs:86 | an interpolated page number is a non-empty run of digits and minus signs |
| Text.IntRoundTrip | YouniumClient/YouniumClient.cs:86 | the interpolated page number reads back as the same integer |
| Json.AsString | YouniumClient/YouniumToken.cs:11 | `Value<string>` on a present member: null for JSON null, the text of a string, the decimal text of a number, "True" or "False" for a boolean, and a cast failure naming the key for an array or an object |
| Json.AsStrings | YouniumClient/YouniumToken.cs:12 | an array converts element-wise exactly when every element converts, keeping length and order |
| Json.StringArrayValue | YouniumClient/YouniumToken.cs:12 | the errors member: missing or null gives null; an array converts exactly when every element converts, giving the element-wise conversion or the first element failure; anything else fails with the key |
| Json.FromString | YouniumClient/YouniumClient.cs:134 | a `string?` is stored as a JSON string or JSON null, and reads back as itself |
| Json.StringValueRoundTrip | YouniumClient/YouniumClient.cs:134 | storing a `string?` under a key and reading the key back with `Value<string>` (`Json.StringValue`, a missing member read as null) gives that value |
| Json.StringArrayRoundTrip | YouniumClient/YouniumToken.cs:12 | storing a `string?[]` (or null) under a key, as the JSON array `Json.FromStrings` builds, and reading it back as the errors member gives it back |
| PageResults.Add | YouniumClient/YouniumPageResult.cs:15-27 | merging takes every metadata field and both links from the added page, null links included, and the items become the receiver's followed by the added page's, a null list read as empty |
| PageResults.MergeAllItems | YouniumClient/YouniumPageResult.cs:23-24 | merging pages one after the other yields the start's items followed by every page's items in merge order |
| PageResults.MergeAllMetadata | YouniumClient/YouniumPageResult.cs:17-22 | after a run of merges the metadata and links are those of the last page merged |
| PageResults.AddAssociative | YouniumClient/YouniumPageResult.cs:15-27 | merge is associative |
| PageResults.MergeAllAppend | YouniumClient/YouniumClient.cs:100-110 | merging two runs of pages in turn equals merging their concatenation, so the bulk phase and the cursor walk compose |
| Pagination.BulkRange | YouniumClient/YouniumClient.cs:96 | the range starts after page 1's number and has `totalPages - pageNumber` ascending keys; for a page number below the largest `int` it exists exactly when `pageNumber <= totalPages <= pageNumber + int.MaxValue`, otherwise it fails |
| Pagination.Tabulate | YouniumClient/YouniumClient.cs:98 | the table has exactly the entries' keys, each mapped to its own entry's value |
| Pagination.TabulateOrderIrrelevant | YouniumClient/YouniumClient.cs:97-98 | any two arrival orders of the same fetches give the same table |
| Pagination.Responses | YouniumClient/YouniumClient.cs:98 | each key is paired with the fetch of its own page, and ascending keys give distinct entries |
| Pagination.MergeInOrder | YouniumClient/YouniumClient.cs:99-104 | awaiting in key order succeeds exactly when every fetch succeeded; otherwise it fails with the failure of the first failed key, all earlier ones having succeeded |
| Pagination.MergeInOrderPages | YouniumClient/YouniumClient.cs:99-104 | when every fetch succeeded the ordered merge is the merge of the pages in ascending key order, whatever the completion order |
| Pagination.CursorWalk | YouniumClient/YouniumClient.cs:106-110 | a walk that need not start requests nothing; a finished walk ends with no next page or with a last page; items only grow; the first request is the next-page link, and its failure is the outcome with nothing more requested; any other failure is the last request's, or the fuel running out |
| Pagination.CursorDone | YouniumClient/YouniumClient.cs:106 | the walk continues exactly while a next page is announced and the last page is not |
| Pagination.CursorFuelMonotone | YouniumClient/YouniumClient.cs:106-110 | once the walk ends within a fuel bound, more fuel changes nothing, so the bound does not shape the result |
| Pagination.CursorChainWalk | YouniumClient/YouniumClient.cs:106-110 | along a chain of k linked pages the walk makes exactly the k link requests in order and merges the k pages in chain order |
| Pagination.GetPages | YouniumClient/YouniumClient.cs:92-112 | the first request is always page 1 of the given URI, and its failure is the outcome with nothing more requested |
| Pagination.BulkKeys | YouniumClient/YouniumClient.cs:96 | for a page 1 with `pageNumber <= totalPages` the range is exactly `pageNumber + 1 .. totalPages` |
| Pagination.ResponsesTable | YouniumClient/YouniumClient.cs:98 | the table of the fetches holds, under every key, that key's fetch |
| Pagination.BulkMerge | YouniumClient/YouniumClient.cs:96-104 | with the announced pages in hand, the ordered merge is the merge of page 1 with them in ascending page order |
| Pagination.GetPagesBulk | YouniumClient/YouniumClient.cs:92-112 | the bulk phase makes `totalPages - pageNumber` requests; the aggregate holds page 1's items then the announced pages' items in page order; the cursor walk continues from it and its requests follow |
| Pagination.GetPagesBulkFailure | YouniumClient/YouniumClient.cs:96-104 | when a page of the range fails, every page of the range has been requested and the outcome is the failure of the first failed page in ascending order |
| Pagination.BulkRequestNumbers | YouniumClient/YouniumClient.cs:96-98 | the i-th bulk request (`Pagination.PageUris`) asks for page `pageNumber + 1 + i` |
| Pagination.GetPagesSinglePage | YouniumClient/YouniumClient.cs:92-112 | when page 1 is the last and has no cursor, the result is page 1 and it is the only request |
| Pagination.GetPagesRangeError | YouniumClient/YouniumClient.cs:96 | `totalPages < pageNumber` fails with a range error after the first request alone |
| Pagination.GetCollection | YouniumClient/YouniumClient.cs:90 | a collection is paged from page 1 of its endpoint's URI |
| Pagination.GetProducts | YouniumClient/YouniumClient.cs:116 | products are paged from the unfiltered `Products` address, page 1 first |
| Pagination.GetAccounts | YouniumClient/YouniumClient.cs:118 | accounts are paged from the `accounts` address with the filter query kept, page 1 first |
| Pagination.GetSubscriptions | YouniumClient/YouniumClient.cs:120 | subscriptions are paged from the `Subscriptions` address with the filter query kept, page 1 first |
| Pagination.GetUsages | YouniumClient/YouniumClient.cs:122 | usage records are paged from the `Usage` address with the filter query kept, page 1 first |
| Pagination.FilteredFirstRequest | YouniumClient/YouniumClient.cs:114-122 | the first request of a filtered collection keeps the address and the filter query and asks for page 1 of size 100 |
| Pagination.ThreePageScenario | YouniumClient/YouniumClient.cs:92-112 | page 1 of 3 with item a, pages 2 and 3 with b and c and no cursor: the result holds a, b, c in that order after exactly three requests |
| Pagination.MergeTwo | YouniumClient/YouniumPageResult.cs:15-27 | merging two pages into a third keeps the item order and takes the last page's cursor |
| Tokens.DecodeToken | YouniumClient/YouniumToken.cs:9-15 | decoding succeeds exactly when all four members convert, and the token then holds each member's conversion; a missing member is null; a bad access token fails with its key |
| Tokens.DecodeEncode | YouniumClient/YouniumToken.cs:9-20 | decoding the object whose members hold a token's values (null ones left out) gives that token back |
| Tokens.DecodeIgnoresOtherMembers | YouniumClient/YouniumToken.cs:9-15 | a member other than the four token members leaves the decoding unchanged |
| Tokens.HasAccessToken | YouniumClient/YouniumClient.cs:24 | a token is usable exactly when `string.IsNullOrEmpty` is false of its access token |
| Tokens.FailureMessage | YouniumClient/YouniumClient.cs:25 | no error list gives "No token", an empty list gives "", the message starts with the first error and a single error is the message itself (null read as empty) |
| Tokens.FailureMessageAppend | YouniumClient/YouniumClient.cs:25 | the message for two non-empty runs of errors is their two messages joined by ", ", so every error appears in order with ", " between neighbours, null read as empty (the lines are `Tokens.Messages`) |
| Text.Join | YouniumClient/YouniumClient.cs:25 | joining no parts gives "", otherwise the result starts with the first part |
| Text.JoinAppend | YouniumClient/YouniumClient.cs:25 | joining two non-empty runs of parts is joining each and putting one separator between them |
| Text.JoinLength | YouniumClient/YouniumClient.cs:25 | the joined text is as long as the parts together plus one separator between each pair of neighbours |
| Tokens.BadSecretMessage | YouniumClient/YouniumToken.cs:9-15 | `{accessToken: null, errors: ["bad secret"]}` decodes to a token without access token whose failure message is "bad secret" |
| Tokens.CacheKey | YouniumClient/YouniumToken.cs:30 | the cache key is "YouniumTokenProd" or "YouniumTokenSandbox" |
| Tokens.ClientIdSecretName | YouniumClient/YouniumToken.cs:39 | the client-id secret is "YouniumProdClientId" in production and "YouniumSandboxClientId" in the sandbox |
| Tokens.ClientSecretName | YouniumClient/YouniumToken.cs:40 | the client secret is "YouniumProdSecret" in production and "YouniumSandboxSecret" in the sandbox |
| Tokens.NamesIdentifyEnvironment | YouniumClient/YouniumToken.cs:30-40 | cache key and both secret names each determine the environment, and no client-id name equals a secret name |
| Tokens.TokenEndpoint | YouniumClient/YouniumToken.cs:36 | the token endpoint is the origin followed by "/auth/token" |
| Tokens.TokenRequest | YouniumClient/YouniumToken.cs:35-41 | the token request is a POST to the token endpoint whose JSON object body carries the client id and the secret |
| Tokens.IssueToken | YouniumClient/YouniumToken.cs:34-44 | no getter fails; a failure to read either secret and a transport failure are returned as is; once the post answers, a body that parses to an object gives exactly that object's decoding and any other body fails to parse; a token is issued only along that path |
| Tokens.IssueEncoded | YouniumClient/YouniumToken.cs:34-44 | when the endpoint answers with the object holding a token's values, the issuer returns that token whatever the status |
| Tokens.DefaultGetterFails | YouniumClient/YouniumToken.cs:23 | with the default getter (`Tokens.DefaultSecretGetter`) issuance fails on the environment's client-id name before anything is sent |
| Tokens.PassthroughCallsIssuer | YouniumClient/YouniumToken.cs:25-26 | the default hook (`Tokens.PassthroughHook`), through `Tokens.GetCachedOrCall`, calls the issuer once and returns its outcome unchanged |
| Tokens.GetJwtTokenCached | YouniumClient/YouniumToken.cs:29-31 | the hook is asked under the environment's cache key with a 30-minute lifetime; the issuer runs exactly when it has nothing, and the outcome is the issuer's or else the hook's |
| TokenCache.CacheStanding | YouniumClient/YouniumClient.cs:17-18 | the cached token is fresh exactly when its expiry parses to more than 30 minutes after now, and unreadable exactly when the expiry text does not parse |
| TokenCache.EnsureToken | YouniumClient/YouniumClient.cs:15-33 | a fresh token is served unchanged without the issuer; an unreadable expiry fails and changes nothing; otherwise a fetched token is cached and returned when it has an access token and fails with its failure message when not, and a failed fetch is the outcome with the cache unchanged |
| TokenCache.PassthroughRefreshesIffStale | YouniumClient/YouniumClient.cs:17-22 | with the default hook the issuer is called exactly when the cached token is not fresh and its expiry is not unreadable, so always when nothing is cached or the token has no expiry |
| TokenCache.BoundaryRefreshes | YouniumClient/YouniumClient.cs:18 | a token expiring exactly 30 minutes from now is refreshed |
| TokenCache.RefreshedTokenServedFromCache | YouniumClient/YouniumClient.cs:17-23 | after a refresh, a later call within the margin returns the same token without calling the issuer |
| TokenCache.FailedTokenServedLater | YouniumClient/YouniumClient.cs:17-25 | a token without access token but with a far expiry fails the call that fetched it and is served as valid by the next |
| TokenCache.BadSecretScenario | YouniumClient/YouniumClient.cs:22-25 | nothing cached, default hook, answer with error "bad secret": the issuer is called, the call fails with "bad secret", and the rejected token is cached |
| Client.Classify | YouniumClient/YouniumClient.cs:50-63 | object-shaped text yields the object it parses to, whatever the status; unparseable text fails; other text fails with its status unless it is a success; a non-object value comes back under "data" |
| Client.ObjectShaped | YouniumClient/YouniumClient.cs:51 | text is object-shaped exactly when it starts with "{" and ends with "}", so a one-character text never is |
| Http.IsSuccessStatus | YouniumClient/YouniumClient.cs:58 | a status is a success exactly when it is in the 2xx range |
| Client.ObjectShapedIgnoresStatus | YouniumClient/YouniumClient.cs:51-56 | for object-shaped text the status plays no part |
| Client.PlainTextClassification | YouniumClient/YouniumClient.cs:57-63 | other text succeeds exactly when it parses and the status is a success, returning the object or a one-member "data" object |
| Client.StructuredErrorReachesCaller | YouniumClient/YouniumClient.cs:51-56 | a structured error object sent with status 400 is returned as a result |
| Client.Send | YouniumClient/YouniumClient.cs:45-64 | the token step runs first and its cache is kept; a token failure sends nothing and is the outcome; otherwise exactly the request is sent, and the outcome is the transport's failure or the classification of its response |
| Client.FreshTokenSendsDirectly | YouniumClient/YouniumClient.cs:17-21 | with a fresh token a request goes out at once, the issuer is not called and the client is unchanged |
| Client.FreshTokenOutcome | YouniumClient/YouniumClient.cs:45-64 | with a fresh token the outcome is the transport's failure or the classification of its response |
| Client.EndpointRequest | YouniumClient/YouniumClient.cs:66-71 | the request carries the verb and the object, to origin '/' endpoint |
| Client.CopyBackId | YouniumClient/YouniumClient.cs:133-135 | on an answer whose id reads as a string the object gains exactly the "id" member, a JSON string or null holding the answer's id read as a string, all else kept; otherwise the object is unchanged and the call fails |
| Client.CreateObject | YouniumClient/YouniumClient.cs:131-136 | a create posts the object and keeps the client the post leaves; it succeeds exactly when the post answers with a readable id; the object then gains exactly the "id" member, a JSON string or null holding that id, all else kept; on failure the object is unchanged |
| Client.CreateWithoutIdClearsId | YouniumClient/YouniumClient.cs:134 | an answer without id sets the object's id to null, erasing any id it had |
| Client.CreateCopiesStringId | YouniumClient/YouniumClient.cs:134 | a string id in the answer, whatever other members the answer has, lands in the object as that string |
| Client.CreateEntity | YouniumClient/YouniumClient.cs:124-129 | the typed create posts the serialised entity and keeps the client the post leaves; a success is the post's own answer, and the entity gets its id read as a string; otherwise the id is left and the call fails |
| Client.CreateVariantsAgree | YouniumClient/YouniumClient.cs:124-136 | the typed and the untyped create make the same call with the same outcome and leave the same id |
| Client.Update | YouniumClient/YouniumClient.cs:138-141 | the token step runs first and its cache is kept; a token failure sends nothing and is the outcome; otherwise exactly the PATCH of the object to origin '/' endpoint is sent, and the outcome is the transport's failure or the classification of its response |
| Client.FreshUpdate | YouniumClient/YouniumClient.cs:138-141 | with a fresh token an update sends one PATCH, leaves the client as it was and returns an object-shaped answer as the object it parses to |

## Left out

- HTTP headers (`Authorization`, `Accept`, `legal-entity`, `api-version`) are not modelled. The shared `HttpClient`'s default headers are process-wide mutable state that no result depends on.
- Concurrency is not modelled: the parallel fan-out of page fetches and racing token refreshes. Fetches are pure in the model. Arrival order is covered by `Pagination.TabulateOrderIrrelevant`.
- Pagination.GetPages: each page fetch runs the token check again, and a refresh between pages could change later requests. The page oracle depends on the URI alone, so these refreshes are not threaded through a run.
- Decoding a page (`ToObject<YouniumPageResult>`) is not modelled: the page oracle returns decoded pages.
- The `JsonParser` parameter stands for Newtonsoft's reader. That reader turns an ISO date string into a `DateTime`, and `Value<string>` then writes it back in the invariant culture's format. So the expiry text handed to the date reader is re-formatted text, not the characters the endpoint sent. Tokens.DecodeEncode speaks of the decoded object, not of the endpoint's text.
- Text.IntToString: page numbers are formatted as under the invariant culture, with an ASCII '-'. A current culture with another negative sign is not modelled.
- JSON text parsing and serialisation (`JObject.Parse`, `JToken.Parse`, `ToString`, `PostAsJsonAsync`) are not modelled: parsing is a parameter. JSON numbers are integers only; floating-point values are not modelled.
- `DateTime.Parse` and `DateTime.UtcNow` are not modelled: they are a parameter and an argument in minutes. Time zones and `DateTimeKind` are not modelled.
- Console logging of failed responses is left out.
- Typed serialisation (`JObject.FromObject` with null members omitted) is not modelled: `Client.CreateEntity` takes the serialised body as an argument. The `YouniumId` class is not part of this model.
- The cache hook (`GetCachedOrCall`): a hook that transforms the issuer's outcome, or returns a null token, cannot be expressed. A hook either supplies an outcome or defers to the issuer.
- URI escaping, fragments and `UriBuilder` normalisation (default ports, the empty path) are not modelled. A URI is an address plus a query.
- Pagination.CursorWalk: the source loop is unbounded, so a cyclic cursor never ends. The model spends one unit of fuel per fetch and fails with `CursorFuelExhausted` when it runs out. `Pagination.CursorFuelMonotone` shows that more fuel never changes a walk that ended.
- `SetSsoSecretGetter` is not a separate operation: the installed getter is the `secrets` argument.
- Exceptions are `ClientError` values. Exception types and messages are not distinguished beyond that.

=== FILE: api.dfy ===
/** The environment-dependent strings of the client and the collection
    endpoints it pages through. */
module Api {
  import opened Results
  import opened Uris

  /** `GetProdSandboxString`: the suffix that qualifies cache keys and secret names. */
  function EnvironmentName(isProd: bool): (s: string)
    ensures s == "Prod" || s == "Sandbox"
    ensures EnvironmentOfName(s) == Some(isProd)
  {
    if isProd then "Prod" else "Sandbox"
  }

  function EnvironmentOfName(s: string): Option<bool> {
    if s == "Prod" then Some(true)
    else if s == "Sandbox" then Some(false)
    else None
  }

  const ProductionOrigin: string := "https://api.younium.com"
  const SandboxOrigin: string := "https://api.sandbox.younium.com"

  /** `GetApi`: the origin every request of the environment goes to. */
  function Origin(isProd: bool): (s: string)
    ensures '?' !in s
    ensures EnvironmentOfOrigin(s) == Some(isProd)
  {
    if isProd then ProductionOrigin else SandboxOrigin
  }

  function EnvironmentOfOrigin(s: string): Option<bool> {
    if s == ProductionOrigin then Some(true)
    else if s == SandboxOrigin then Some(false)
    else None
  }

  /** The URI of `endpoint` relative to the environment's origin. */
  function EndpointUri(isProd: bool, endpoint: string): (u: Uri)
    ensures UriText(u) == Origin(isProd) + "/" + endpoint
  {
    ParseUri(Origin(isProd) + "/" + endpoint)
  }

  /** `GetFilterQuery`: nothing without a filter, else a `filter` query. */
  function FilterQuery(filter: Option<string>): (q: string)
    ensures filter.None? <==> q == ""
    ensures filter.Some? ==> "?filter=" <= q && q[|"?filter="|..] == filter.value
    ensures forall address :: FilterOf(Uri(address, q)) == filter
  {
    match filter
    case None => ""
    case Some(f) => "?filter=" + f
  }

  /** The filter a collection URI carries, read back from its query. */
  function FilterOf(u: Uri): Option<string> {
    if "?filter=" <= u.query then Some(u.query[|"?filter="|..]) else None
  }

  /** A collection URI built from an endpoint name without '?' and an optional
      filter has the name in its address and carries exactly that filter. */
  lemma FilterRoundTrip(isProd: bool, name: string, filter: Option<string>)
    requires '?' !in name
    ensures EndpointUri(isProd, name + FilterQuery(filter)).address == Origin(isProd) + "/" + name
    ensures FilterOf(EndpointUri(isProd, name + FilterQuery(filter))) == filter
  {
    FilterAddressRoundTrip(Origin(isProd), name, filter);
  }

  lemma FilterAddressRoundTrip(origin: string, name: string, filter: Option<string>)
    requires '?' !in origin && '?' !in name
    ensures ParseUri(origin + "/" + (name + FilterQuery(filter))).address == origin + "/" + name
    ensures FilterOf(ParseUri(origin + "/" + (name + FilterQuery(filter)))) == filter
  {
    var address := origin + "/" + name;
    NoMarkInPath(origin, name);
    assert (origin + "/") + (name + FilterQuery(filter)) == address + FilterQuery(filter);
    FilterQueryRoundTrip(address, filter);
  }

  /** A path joined from parts without '?' has none either. */
  lemma NoMarkInPath(origin: string, name: string)
    requires '?' !in origin && '?' !in name
    ensures '?' !in origin + "/" + name
  {
    var p := origin + "/" + name;
    forall i | 0 <= i < |p|
      ensures p[i] != '?'
    {
      if i < |origin| {
        assert p[i] == origin[i];
      } else if i > |origin| {
        assert p[i] == name[i - |origin| - 1];
      }
    }
  }

  lemma FilterQueryRoundTrip(address: string, filter: Option<string>)
    requires '?' !in address
    ensures ParseUri(address + FilterQuery(filter)).address == address
    ensures FilterOf(ParseUri(address + FilterQuery(filter))) == filter
  {
    var q := FilterQuery(filter);
    ParseUriText(Uri(address, q));
    if filter.Some? {
      assert q[|"?filter="|..] == filter.value;
    }
  }

  const ProductsEndpoint: string := "Products"
  const AccountsEndpoint: string := "accounts"
  const SubscriptionsEndpoint: string := "Subscriptions"
  const UsageEndpoint: string := "Usage"
}

=== FILE: client.dfy ===
/** `YouniumClient`'s request path: the token check before every request,
    the classification of the response text, and the create and update
    calls built on it. */
module Client {
  import opened Results
  import opened Json
  import opened Uris
  import opened Api
  import opened Http
  import opened Tokens
  import opened TokenCache

  /** A client for one environment and legal entity, with the token it
      last obtained. */
  datatype Client = Client(isProd: bool, legalEntity: string, tokenCache: Option<Token>)

  /** The response text looks like a JSON object: it starts with '{' and
      ends with '}'. A one-character text is never object-shaped. */
  function ObjectShaped(body: string): (b: bool)
    ensures b <==> "{" <= body && |body| > 0 && body[|body| - 1..] == "}"
    ensures |body| < 2 ==> !b
  {
    |body| > 0 && body[0] == '{' && body[|body| - 1] == '}'
  }

  /** The answer of `SendAsync` for a response with text `body` and status
      `status`. Object-shaped text is returned as the object it parses to
      whatever the status, so a structured error body reaches the caller as
      a result. Other text must parse; then a non-success status fails, and
      a value that is not an object is wrapped under "data". */
  function Classify(body: string, status: int, parse: JsonParser): (r: Result<JObject>)
    ensures ObjectShaped(body) ==>
      (r.Success? <==> parse(body).Some? && parse(body).value.JObj?)
    ensures r.Success? ==> parse(body).Some?
    ensures r.Success? && parse(body).value.JObj? ==> r.value == parse(body).value.fields
    ensures r.Success? && !parse(body).value.JObj? ==>
      !ObjectShaped(body) && r.value == map["data" := parse(body).value]
    ensures r.Success? && !ObjectShaped(body) ==> IsSuccessStatus(status)
    ensures parse(body).None? ==> r == Failure(JsonParseError)
    ensures !ObjectShaped(body) && parse(body).Some? && !IsSuccessStatus(status) ==> r == Failure(HttpError(status))
  {
    if ObjectShaped(body) then
      match parse(body)
      case Some(JObj(fields)) => Success(fields)
      case _ => Failure(JsonParseError)
    else
      match parse(body)
      case None => Failure(JsonParseError)
      case Some(v) =>
        if !IsSuccessStatus(status) then Failure(HttpError(status))
        else if v.JObj? then Success(v.fields)
        else Success(map["data" := v])
  }

  /** The status code plays no part for object-shaped text. */
  lemma ObjectShapedIgnoresStatus(body: string, status: int, other: int, parse: JsonParser)
    requires ObjectShaped(body)
    ensures Classify(body, status, parse) == Classify(body, other, parse)
  {
  }

  /** For text that is not object-shaped, the classification succeeds
      exactly when the text parses and the status is a success; the value
      comes back unchanged, or as the one member "data" of a new object. */
  lemma PlainTextClassification(body: string, status: int, parse: JsonParser)
    requires !ObjectShaped(body)
    ensures Classify(body, status, parse).Success? <==> parse(body).Some? && IsSuccessStatus(status)
    ensures Classify(body, status, parse).Success? ==>
      var o := Classify(body, status, parse).value;
      if parse(body).value.JObj? then JObj(o) == parse(body).value
      else o.Keys == {"data"} && o["data"] == parse(body).value
  {
  }

  /** A validation error answered with status 400 as a JSON object is a
      successful result holding that object. */
  lemma StructuredErrorReachesCaller(body: string, parse: JsonParser, fields: JObject)
    requires ObjectShaped(body) && parse(body) == Some(JObj(fields))
    ensures Classify(body, 400, parse) == Success(fields)
  {
  }

  /** One call of `SendAsync`: the client afterwards, the answer, the
      requests that went out and whether a token was issued. */
  datatype Sent = Sent(client: Client, outcome: Result<JObject>, requests: seq<Request>, issuerCalled: bool)

  /** Make sure of a token, then send the request and classify the answer.
      A token failure stops the call before anything is sent. */
  function Send(c: Client, s: Services, now: int, req: Request): (r: Sent)
    ensures r.client == c.(tokenCache := EnsureToken(c.tokenCache, now, s, c.isProd).cache)
    ensures r.issuerCalled == EnsureToken(c.tokenCache, now, s, c.isProd).issuerCalled
    ensures EnsureToken(c.tokenCache, now, s, c.isProd).outcome.Failure? ==>
      r.requests == [] && r.outcome == Failure(EnsureToken(c.tokenCache, now, s, c.isProd).outcome.error)
    ensures EnsureToken(c.tokenCache, now, s, c.isProd).outcome.Success? ==> r.requests == [req]
    ensures EnsureToken(c.tokenCache, now, s, c.isProd).outcome.Success? && s.transport(req).Failure? ==>
      r.outcome == Failure(s.transport(req).error)
    ensures EnsureToken(c.tokenCache, now, s, c.isProd).outcome.Success? && s.transport(req).Success? ==>
      r.outcome == Classify(s.transport(req).value.body, s.transport(req).value.status, s.parseJson)
    ensures r.outcome.Success? ==>
      && s.transport(req).Success?
      && r.outcome == Classify(s.transport(req).value.body, s.transport(req).value.status, s.parseJson)
  {
    var step := EnsureToken(c.tokenCache, now, s, c.isProd);
    var c' := c.(tokenCache := step.cache);
    match step.outcome
    case Failure(e) => Sent(c', Failure(e), [], step.issuerCalled)
    case Success(_) =>
      match s.transport(req)
      case Failure(e) => Sent(c', Failure(e), [req], step.issuerCalled)
      case Success(response) =>
        Sent(c', Classify(response.body, response.status, s.parseJson), [req], step.issuerCalled)
  }

  /** With a fresh cached token a request goes out at once, the issuer is
      not called and the client is unchanged. */
  lemma FreshTokenSendsDirectly(c: Client, s: Services, now: int, req: Request)
    requires CacheStanding(c.tokenCache, now, s.parseTime).Fresh?
    ensures Send(c, s, now, req).client == c
    ensures Send(c, s, now, req).requests == [req]
    ensures !Send(c, s, now, req).issuerCalled
  {
  }

  /** With a fresh cached token the answer is the transport's failure, or
      the classification of the transport's response. */
  lemma FreshTokenOutcome(c: Client, s: Services, now: int, req: Request)
    requires CacheStanding(c.tokenCache, now, s.parseTime).Fresh?
    ensures s.transport(req).Failure? ==> Send(c, s, now, req).outcome == Failure(s.transport(req).error)
    ensures s.transport(req).Success? ==>
      Send(c, s, now, req).outcome == Classify(s.transport(req).value.body, s.transport(req).value.status, s.parseJson)
  {
  }

  /** The request `SendAsync(method, endpoint, body)` builds: the endpoint
      under the environment's origin, the object as body. */
  function EndpointRequest(isProd: bool, verb: Method, endpoint: string, body: JObject): (req: Request)
    ensures req.verb == verb && req.body == Some(JObj(body))
    ensures UriText(req.target) == Origin(isProd) + "/" + endpoint
  {
    Request(verb, EndpointUri(isProd, endpoint), Some(JObj(body)))
  }

  /** The outcome of `CreateAsync` on an untyped object: the call, and the
      object afterwards. */
  datatype Created = Created(sent: Sent, obj: JObject)

  /** The id copy-back after a call: on an answer, its "id", read as a
      string and null when absent, is written into the object. An "id"
      that cannot be read as a string fails the call and leaves the object
      as it was, as does a failed call. */
  function CopyBackId(sent: Sent, obj: JObject): (r: Created)
    ensures r.sent.client == sent.client && r.sent.requests == sent.requests
    ensures r.sent.outcome.Success? <==> sent.outcome.Success? && StringValue(sent.outcome.value, "id").Success?
    ensures r.sent.outcome.Success? ==> r.sent.outcome == sent.outcome
    ensures r.sent.outcome.Failure? ==> r.obj == obj
    ensures r.sent.outcome.Success? ==>
      && r.obj.Keys == obj.Keys + {"id"}
      && (forall k :: k in obj && k != "id" ==> r.obj[k] == obj[k])
      && StringValue(r.obj, "id") == StringValue(r.sent.outcome.value, "id")
    ensures r.sent.outcome.Success? ==> r.obj["id"].JNull? || r.obj["id"].JStr?
  {
    match sent.outcome
    case Failure(_) => Created(sent, obj)
    case Success(response) =>
      match StringValue(response, "id")
      case Failure(e) => Created(sent.(outcome := Failure(e)), obj)
      case Success(id) => Created(sent, obj["id" := FromString(id)])
  }

  /** `CreateAsync` on an untyped object: post it, then copy the answer's
      id back into it. */
  function CreateObject(c: Client, s: Services, now: int, endpoint: string, obj: JObject): (r: Created)
    ensures var sent := Send(c, s, now, EndpointRequest(c.isProd, Post, endpoint, obj));
      && r.sent.requests == sent.requests
      && (r.sent.outcome.Success? <==> sent.outcome.Success? && StringValue(sent.outcome.value, "id").Success?)
      && (r.sent.outcome.Success? ==> r.sent.outcome == sent.outcome)
    ensures r.sent.client == Send(c, s, now, EndpointRequest(c.isProd, Post, endpoint, obj)).client
    ensures r.sent.outcome.Failure? ==> r.obj == obj
    ensures r.sent.outcome.Success? ==>
      && r.obj.Keys == obj.Keys + {"id"}
      && (forall k :: k in obj && k != "id" ==> r.obj[k] == obj[k])
      && StringValue(r.obj, "id") == StringValue(r.sent.outcome.value, "id")
    ensures r.sent.outcome.Success? ==> r.obj["id"].JNull? || r.obj["id"].JStr?
  {
    CopyBackId(Send(c, s, now, EndpointRequest(c.isProd, Post, endpoint, obj)), obj)
  }

  /** An answer without "id" erases the id the object had: it is set to
      null. */
  lemma CreateWithoutIdClearsId(c: Client, s: Services, now: int, endpoint: string, obj: JObject)
    requires Send(c, s, now, EndpointRequest(c.isProd, Post, endpoint, obj)).outcome.Success?
    requires "id" !in Send(c, s, now, EndpointRequest(c.isProd, Post, endpoint, obj)).outcome.value
    ensures CreateObject(c, s, now, endpoint, obj).obj == obj["id" := JNull]
  {
  }

  /** A string id in the answer lands in the object as that string. */
  lemma CreateCopiesStringId(c: Client, s: Services, now: int, endpoint: string, obj: JObject, id: string)
    requires Send(c, s, now, EndpointRequest(c.isProd, Post, endpoint, obj)).outcome.Success?
    requires "id" in Send(c, s, now, EndpointRequest(c.isProd, Post, endpoint, obj)).outcome.value
    requires Send(c, s, now, EndpointRequest(c.isProd, Post, endpoint, obj)).outcome.value["id"] == JStr(id)
    ensures CreateObject(c, s, now, endpoint, obj).obj == obj["id" := JStr(id)]
  {
  }

  /** The outcome of `CreateAsync` on a typed entity: the call, and the
      entity's id afterwards. */
  datatype CreatedEntity = CreatedEntity(sent: Sent, id: Option<string>)

  /** Post the entity's serialised form; on an answer the entity's id
      becomes the answer's "id" read as a string. */
  function CreateEntity(c: Client, s: Services, now: int, endpoint: string, serialized: JObject, id: Option<string>): (r: CreatedEntity)
    ensures var sent := Send(c, s, now, EndpointRequest(c.isProd, Post, endpoint, serialized));
      && r.sent.requests == sent.requests
      && (r.sent.outcome.Success? <==> sent.outcome.Success? && StringValue(sent.outcome.value, "id").Success?)
    ensures r.sent.client == Send(c, s, now, EndpointRequest(c.isProd, Post, endpoint, serialized)).client
    ensures r.sent.issuerCalled == Send(c, s, now, EndpointRequest(c.isProd, Post, endpoint, serialized)).issuerCalled
    ensures r.sent.outcome.Success? ==> r.sent.outcome == Send(c, s, now, EndpointRequest(c.isProd, Post, endpoint, serialized)).outcome
    ensures r.sent.outcome.Failure? ==> r.id == id
    ensures r.sent.outcome.Success? ==> Success(r.id) == StringValue(r.sent.outcome.value, "id")
  {
    var sent := Send(c, s, now, EndpointRequest(c.isProd, Post, endpoint, serialized));
    match sent.outcome
    case Failure(_) => CreatedEntity(sent, id)
    case Success(response) =>
      match StringValue(response, "id")
      case Failure(e) => CreatedEntity(sent.(outcome := Failure(e)), id)
      case Success(newId) => CreatedEntity(sent, newId)
  }

  /** The typed and the untyped create agree: posting the same body makes
      the same call with the same outcome, and leaves the same id on the
      entity as in the object. */
  lemma CreateVariantsAgree(c: Client, s: Services, now: int, endpoint: string, obj: JObject, id: Option<string>)
    requires FromString(id) == (if "id" in obj then obj["id"] else JNull)
    ensures CreateObject(c, s, now, endpoint, obj).sent == CreateEntity(c, s, now, endpoint, obj, id).sent
    ensures StringValue(CreateObject(c, s, now, endpoint, obj).obj, "id")
         == Success(CreateEntity(c, s, now, endpoint, obj, id).id)
  {
  }

  /** `UpdateAsync`: the object sent with PATCH to the endpoint, the answer
      returned as is. */
  function Update(c: Client, s: Services, now: int, endpoint: string, obj: JObject): (r: Sent)
    ensures forall req :: req in r.requests ==>
      req.verb == Patch && req.body == Some(JObj(obj)) && UriText(req.target) == Origin(c.isProd) + "/" + endpoint
    ensures r.outcome.Success? ==> |r.requests| == 1
    ensures var step := EnsureToken(c.tokenCache, now, s, c.isProd);
      && r.client == c.(tokenCache := step.cache)
      && r.issuerCalled == step.issuerCalled
      && (step.outcome.Failure? ==> r.requests == [] && r.outcome == Failure(step.outcome.error))
      && (step.outcome.Success? ==> r.requests == [EndpointRequest(c.isProd, Patch, endpoint, obj)])
    ensures var req := EndpointRequest(c.isProd, Patch, endpoint, obj);
      EnsureToken(c.tokenCache, now, s, c.isProd).outcome.Success? ==>
      && (s.transport(req).Failure? ==> r.outcome == Failure(s.transport(req).error))
      && (s.transport(req).Success? ==>
            r.outcome == Classify(s.transport(req).value.body, s.transport(req).value.status, s.parseJson))
  {
    Send(c, s, now, EndpointRequest(c.isProd, Patch, endpoint, obj))
  }

  /** With a fresh cached token an update sends exactly one PATCH, leaves
      the client as it was, and an object-shaped answer comes back as the
      object it parses to whatever its status. */
  lemma FreshUpdate(c: Client, s: Services, now: int, endpoint: string, obj: JObject, response: Response, fields: JObject)
    requires CacheStanding(c.tokenCache, now, s.parseTime).Fresh?
    requires s.transport(EndpointRequest(c.isProd, Patch, endpoint, obj)) == Success(response)
    requires ObjectShaped(response.body) && s.parseJson(response.body) == Some(JObj(fields))
    ensures Update(c, s, now, endpoint, obj) == Sent(c, Success(fields), [EndpointRequest(c.isProd, Patch, endpoint, obj)], false)
  {
  }
}

=== FILE: http.dfy ===
/** The transport the client talks through, as an oracle: the HTTP stack, the
    JSON text parser and the clock are parameters of the model. */
module Http {
  import opened Results
  import opened Json
  import opened Uris

  datatype Method = Get | Post | Patch

  /** A request: verb, target URI and optional JSON body. The
      authentication, accept, legal-entity and api-version headers are not
      part of the model. */
  datatype Request = Request(verb: Method, target: Uri, body: Option<Json>)

  /** A response: its status code and its body as text. */
  datatype Response = Response(status: int, body: string)

  /** `HttpResponseMessage.IsSuccessStatusCode`. */
  function IsSuccessStatus(status: int): (b: bool)
    ensures b <==> status >= 0 && status / 100 == 2
  {
    200 <= status <= 299
  }

  /** Sending one request: a response, or the transport's own failure. */
  type Transport = Request -> Result<Response>

  /** The JSON text parser: the parsed value, or None where it throws. */
  type JsonParser = string -> Option<Json>
}

=== FILE: json.dfy ===
/** An abstract JSON value, and the conversions the client applies to the
    values it reads out of JSON objects. */
module Json {
  import opened Results
  import Text

  datatype Json =
    | JNull
    | JBool(b: bool)
    | JNum(n: int)
    | JStr(s: string)
    | JArr(items: seq<Json>)
    | JObj(fields: map<string, Json>)

  /** The members of a JSON object by name. */
  type JObject = map<string, Json>

  /** A token converted to `string?` the way the JSON library does it: null
      stays null, a string is itself, a number or boolean is formatted, and
      an array or object cannot be converted. `key` names the member read. */
  function AsString(j: Json, key: string): (r: Result<Option<string>>)
    ensures r.Failure? <==> j.JArr? || j.JObj?
    ensures r.Failure? ==> r.error == InvalidCast(key)
    ensures r == Success(None) <==> j.JNull?
    ensures j.JStr? ==> r == Success(Some(j.s))
    ensures j.JNum? ==> r == Success(Some(Text.IntToString(j.n)))
    ensures j.JBool? ==> r == Success(Some(if j.b then "True" else "False"))
  {
    match j
    case JNull => Success(None)
    case JBool(b) => Success(Some(if b then "True" else "False"))
    case JNum(n) => Success(Some(Text.IntToString(n)))
    case JStr(s) => Success(Some(s))
    case JArr(_) => Failure(InvalidCast(key))
    case JObj(_) => Failure(InvalidCast(key))
  }

  /** `o.Value<string>(key)`: a missing member reads as null. */
  function StringValue(o: JObject, key: string): (r: Result<Option<string>>)
    ensures key !in o ==> r == Success(None)
    ensures key in o ==> r == AsString(o[key], key)
  {
    if key in o then AsString(o[key], key) else Success(None)
  }

  /** Each element of an array converted to `string?`; the first element that
      cannot be converted fails the whole conversion. */
  function AsStrings(items: seq<Json>, key: string): (r: Result<seq<Option<string>>>)
    ensures r.Success? <==> forall i :: 0 <= i < |items| ==> AsString(items[i], key).Success?
    ensures r.Success? ==> |r.value| == |items|
    ensures r.Success? ==> forall i :: 0 <= i < |items| ==> r.value[i] == AsString(items[i], key).value
    decreases |items|
  {
    if |items| == 0 then Success([])
    else
      var first :- AsString(items[0], key);
      var rest :- AsStrings(items[1..], key);
      Success([first] + rest)
  }

  /** `o.Value<JArray>(key)?.ToObject<string?[]>()`: a missing or null member
      reads as null, an array converts element-wise, anything else fails. */
  function StringArrayValue(o: JObject, key: string): (r: Result<Option<seq<Option<string>>>>)
    ensures key !in o ==> r == Success(None)
    ensures key in o && o[key].JNull? ==> r == Success(None)
    ensures key in o && !o[key].JNull? && !o[key].JArr? ==> r == Failure(InvalidCast(key))
    ensures key in o && o[key].JArr? ==>
      (r.Success? <==> AsStrings(o[key].items, key).Success?)
    ensures key in o && o[key].JArr? && r.Success? ==> r == Success(Some(AsStrings(o[key].items, key).value))
    ensures key in o && o[key].JArr? && r.Failure? ==> r.error == AsStrings(o[key].items, key).error
  {
    if key !in o then Success(None)
    else
      match o[key]
      case JNull => Success(None)
      case JArr(items) =>
        var ss :- AsStrings(items, key);
        Success(Some(ss))
      case _ => Failure(InvalidCast(key))
  }

  /** The JSON token C# stores for a `string?` value. */
  function FromString(s: Option<string>): (j: Json)
    ensures j.JNull? || j.JStr?
    ensures AsString(j, "") == Success(s)
  {
    match s
    case None => JNull
    case Some(t) => JStr(t)
  }

  /** The JSON array C# stores for a `string?[]` value. */
  function FromStrings(ss: seq<Option<string>>): (j: Json)
    ensures j.JArr? && |j.items| == |ss|
    ensures forall i :: 0 <= i < |ss| ==> j.items[i] == FromString(ss[i])
  {
    JArr(seq(|ss|, i requires 0 <= i < |ss| => FromString(ss[i])))
  }

  /** Storing a `string?` under a key and reading it back with `Value<string>`
      gives the same value. */
  lemma StringValueRoundTrip(o: JObject, key: string, s: Option<string>)
    ensures StringValue(o[key := FromString(s)], key) == Success(s)
  {
  }

  /** Storing a `string?[]` under a key and reading it back gives the same array. */
  lemma {:induction false} StringArrayRoundTrip(o: JObject, key: string, ss: Option<seq<Option<string>>>)
    ensures StringArrayValue(o[key := if ss.Some? then FromStrings(ss.value) else JNull], key) == Success(ss)
  {
    if ss.Some? {
      var items := FromStrings(ss.value).items;
      assert forall i :: 0 <= i < |items| ==> AsString(items[i], key) == Success(ss.value[i]);
      var r := AsStrings(items, key);
      assert r.Success?;
      assert r.value == ss.value;
    }
  }
}

=== FILE: numbers.dfy ===
/** C#'s 32-bit `int` and its unchecked wrap-around arithmetic. */
module Numbers {

  const MinInt32: int := -0x8000_0000
  const MaxInt32: int := 0x7fff_ffff
  const TwoTo32: int := 0x1_0000_0000

  type Int32 = x: int | MinInt32 <= x <= MaxInt32

  /** The value an unchecked C# `int` operation leaves when its exact result is `x`. */
  function Wrap32(x: int): (r: Int32)
    ensures (r - x) % TwoTo32 == 0
    ensures MinInt32 <= x <= MaxInt32 ==> r == x
    ensures MaxInt32 < x <= MaxInt32 + TwoTo32 ==> r == x - TwoTo32
    ensures MinInt32 - TwoTo32 <= x < MinInt32 ==> r == x + TwoTo32
  {
    (x - MinInt32) % TwoTo32 + MinInt32
  }
}

=== FILE: page_result.dfy ===
/** One page of a paginated collection, and the merge that accumulates
    successive pages into one result. */
module PageResults {
  import opened Results
  import opened Numbers
  import opened Json
  import opened Uris

  /** The pagination metadata, the cursor links and the items of a page; a
      C# null `data` list is `None`. */
  datatype PageResult = PageResult(
    pageNumber: Int32,
    pageSize: Int32,
    totalPages: Int32,
    totalCount: Int32,
    lastPage: Option<Uri>,
    nextPage: Option<Uri>,
    data: Option<seq<Json>>)

  /** The items of a page, a null list read as empty. */
  function Items(p: PageResult): seq<Json> {
    p.data.GetOr([])
  }

  /** `a.Add(b)`: the metadata and both cursor links are overwritten with
      `b`'s, null links included, and `b`'s items are appended to `a`'s. The
      receiver is updated in place in C#; here the updated value is returned,
      and `b` is a value that nothing can change. */
  function Add(a: PageResult, b: PageResult): (r: PageResult)
    ensures r.pageNumber == b.pageNumber && r.pageSize == b.pageSize
    ensures r.totalPages == b.totalPages && r.totalCount == b.totalCount
    ensures r.nextPage == b.nextPage && r.lastPage == b.lastPage
    ensures r.data == Some(Items(a) + Items(b))
    ensures |Items(r)| == |Items(a)| + |Items(b)|
    ensures Items(r)[..|Items(a)|] == Items(a)
  {
    var items := Items(a) + (if b.data.Some? then b.data.value else []);
    PageResult(b.pageNumber, b.pageSize, b.totalPages, b.totalCount, b.lastPage, b.nextPage, Some(items))
  }

  /** The items of `pages`, one page after the other. */
  function ConcatItems(pages: seq<PageResult>): seq<Json>
    decreases |pages|
  {
    if |pages| == 0 then [] else Items(pages[0]) + ConcatItems(pages[1..])
  }

  /** `Add` folded from the left over `pages`, starting from `acc`. */
  function MergeAll(acc: PageResult, pages: seq<PageResult>): PageResult
    decreases |pages|
  {
    if |pages| == 0 then acc else MergeAll(Add(acc, pages[0]), pages[1..])
  }

  /** Same metadata and links. */
  predicate SameMetadata(a: PageResult, b: PageResult) {
    a.pageNumber == b.pageNumber && a.pageSize == b.pageSize
    && a.totalPages == b.totalPages && a.totalCount == b.totalCount
    && a.nextPage == b.nextPage && a.lastPage == b.lastPage
  }

  /** Folding the merge over pages p1..pk from `acc` gives `acc`'s items
      followed by every page's items in order. */
  lemma {:induction false} MergeAllItems(acc: PageResult, pages: seq<PageResult>)
    requires |pages| > 0
    ensures MergeAll(acc, pages).data == Some(Items(acc) + ConcatItems(pages))
    decreases |pages|
  {
    var next := Add(acc, pages[0]);
    var rest := pages[1..];
    assert ConcatItems(pages) == Items(pages[0]) + ConcatItems(rest);
    assert MergeAll(acc, pages) == MergeAll(next, rest);
    if |rest| == 0 {
      assert MergeAll(next, rest) == next;
      assert ConcatItems(rest) == [];
      assert next.data == Some(Items(acc) + Items(pages[0]));
      assert Items(acc) + ConcatItems(pages) == Items(acc) + Items(pages[0]);
    } else {
      MergeAllItems(next, rest);
      assert Items(next) == Items(acc) + Items(pages[0]);
      assert MergeAll(next, rest).data == Some(Items(next) + ConcatItems(rest));
      assert Items(next) + ConcatItems(rest) == Items(acc) + ConcatItems(pages);
    }
  }

  /** After folding over pages p1..pk, the metadata and links are pk's. */
  lemma {:induction false} MergeAllMetadata(acc: PageResult, pages: seq<PageResult>)
    requires |pages| > 0
    ensures SameMetadata(MergeAll(acc, pages), pages[|pages| - 1])
    decreases |pages|
  {
    if |pages| > 1 {
      MergeAllMetadata(Add(acc, pages[0]), pages[1..]);
      assert pages[1..][|pages[1..]| - 1] == pages[|pages| - 1];
    }
  }

  /** Merging is associative: merging `b` and `c` first and then into `a`
      equals merging them into `a` one after the other. */
  lemma AddAssociative(a: PageResult, b: PageResult, c: PageResult)
    ensures Add(Add(a, b), c) == Add(a, Add(b, c))
  {
    assert Items(a) + Items(b) + Items(c) == Items(a) + (Items(b) + Items(c));
  }

  /** Folding over two runs of pages equals folding over their concatenation. */
  lemma {:induction false} MergeAllAppend(acc: PageResult, xs: seq<PageResult>, ys: seq<PageResult>)
    ensures MergeAll(MergeAll(acc, xs), ys) == MergeAll(acc, xs + ys)
    decreases |xs|
  {
    if |xs| > 0 {
      MergeAllAppend(Add(acc, xs[0]), xs[1..], ys);
      assert (xs + ys)[1..] == xs[1..] + ys;
    } else {
      assert xs + ys == ys;
    }
  }
}

=== FILE: pagination.dfy ===
/** Fetching every page of a collection: page 1, then the remaining pages it
    announces (requested together and merged in ascending page order), then
    the `nextPage` cursor until the server ends it. Fetching one page is an
    oracle; the requests a run issues are recorded beside its outcome. */
module Pagination {
  import opened Results
  import opened Numbers
  import opened Uris
  import opened Api
  import opened PageResults

  /** `GetPage`: one page fetched and decoded, or the failure that ended it. */
  type PageFetch = Uri -> Result<PageResult>

  /** The outcome of a run and every page URI it requested, in request order. */
  datatype Run = Run(outcome: Result<PageResult>, requests: seq<Uri>)

  /** `Enumerable.Range(p.pageNumber + 1, p.totalPages - p.pageNumber)`, both
      arguments computed with unchecked 32-bit arithmetic. The range throws on
      a negative count, and on one that runs past the largest `int`. */
  function BulkRange(p: PageResult): (r: Result<seq<Int32>>)
    ensures r.Success? ==> |r.value| == Wrap32(p.totalPages - p.pageNumber)
    ensures r.Success? ==> Ascending(r.value)
    ensures r.Success? ==> forall i :: 0 <= i < |r.value| ==> r.value[i] == Wrap32(p.pageNumber + 1) + i
    ensures p.pageNumber < MaxInt32 ==>
      (r.Success? <==> p.pageNumber <= p.totalPages <= p.pageNumber + MaxInt32)
    ensures p.pageNumber < MaxInt32 && r.Success? ==> |r.value| == p.totalPages - p.pageNumber
    ensures p.pageNumber < MaxInt32 && r.Success? ==>
      forall i :: 0 <= i < |r.value| ==> r.value[i] == p.pageNumber + 1 + i
  {
    var start := Wrap32(p.pageNumber + 1);
    var count := Wrap32(p.totalPages - p.pageNumber);
    if count < 0 || start + count - 1 > MaxInt32 then Failure(RangeOutOfBounds(start, count))
    else Success(seq(count, i requires 0 <= i < count => (start + i) as Int32))
  }

  /** Strictly increasing. */
  predicate Ascending(keys: seq<Int32>) {
    forall i, j :: 0 <= i < j < |keys| ==> keys[i] < keys[j]
  }

  predicate DistinctKeys<R>(entries: seq<(Int32, R)>) {
    forall i, j :: 0 <= i < j < |entries| ==> entries[i].0 != entries[j].0
  }

  /** `ToDictionary`: the entries, in whatever order the parallel query
      produced them, collected into a table by key. */
  function Tabulate<R>(entries: seq<(Int32, R)>): (table: map<Int32, R>)
    requires DistinctKeys(entries)
    ensures table.Keys == set i | 0 <= i < |entries| :: entries[i].0
    ensures forall i :: 0 <= i < |entries| ==> table[entries[i].0] == entries[i].1
    decreases |entries|
  {
    if |entries| == 0 then map[]
    else
      var last := entries[|entries| - 1];
      Tabulate(entries[..|entries| - 1])[last.0 := last.1]
  }

  /** The table does not depend on the order in which the entries arrive:
      any two orderings of the same entries give the same table. */
  lemma TabulateOrderIrrelevant<R>(e1: seq<(Int32, R)>, e2: seq<(Int32, R)>)
    requires DistinctKeys(e1) && DistinctKeys(e2)
    requires multiset(e1) == multiset(e2)
    ensures Tabulate(e1) == Tabulate(e2)
  {
    TabulateIncluded(e1, e2);
    TabulateIncluded(e2, e1);
    var t1 := Tabulate(e1);
    var t2 := Tabulate(e2);
    assert t1.Keys == t2.Keys;
  }

  /** Every entry of `e1` sits in the table of a reordering `e2`. */
  lemma TabulateIncluded<R>(e1: seq<(Int32, R)>, e2: seq<(Int32, R)>)
    requires DistinctKeys(e1) && DistinctKeys(e2)
    requires multiset(e1) == multiset(e2)
    ensures forall k :: k in Tabulate(e1) ==> k in Tabulate(e2) && Tabulate(e1)[k] == Tabulate(e2)[k]
  {
    var t1 := Tabulate(e1);
    var t2 := Tabulate(e2);
    forall k | k in t1
      ensures k in t2 && t1[k] == t2[k]
    {
      var i :| 0 <= i < |e1| && e1[i].0 == k;
      var j := IndexIn(e1[i], e2);
      assert t2[e2[j].0] == e2[j].1;
    }
  }

  /** An element of a sequence has an index there. */
  lemma IndexIn<T>(x: T, s: seq<T>) returns (j: int)
    requires x in multiset(s)
    ensures 0 <= j < |s| && s[j] == x
  {
    assert x in s;
    j :| 0 <= j < |s| && s[j] == x;
  }

  /** The page URIs of `keys`, in order. */
  function PageUris(uri: Uri, keys: seq<Int32>): (us: seq<Uri>)
    ensures |us| == |keys|
    ensures forall i :: 0 <= i < |keys| ==> us[i] == PageUri(uri, keys[i])
  {
    seq(|keys|, i requires 0 <= i < |keys| => PageUri(uri, keys[i]))
  }

  /** Every key of `keys` paired with the fetch of its page. */
  function Responses(fetch: PageFetch, uri: Uri, keys: seq<Int32>): (entries: seq<(Int32, Result<PageResult>)>)
    ensures |entries| == |keys|
    ensures forall i :: 0 <= i < |keys| ==> entries[i] == (keys[i], fetch(PageUri(uri, keys[i])))
    ensures Ascending(keys) ==> DistinctKeys(entries)
  {
    seq(|keys|, i requires 0 <= i < |keys| => (keys[i], fetch(PageUri(uri, keys[i]))))
  }

  predicate AllSucceeded(table: map<Int32, Result<PageResult>>, keys: seq<Int32>) {
    forall i :: 0 <= i < |keys| ==> keys[i] in table && table[keys[i]].Success?
  }

  /** The pages the table holds for `keys`, in key order. */
  function PagesOf(table: map<Int32, Result<PageResult>>, keys: seq<Int32>): (pages: seq<PageResult>)
    requires AllSucceeded(table, keys)
    ensures |pages| == |keys|
    ensures forall i :: 0 <= i < |keys| ==> table[keys[i]] == Success(pages[i])
  {
    seq(|keys|, i requires 0 <= i < |keys| => table[keys[i]].value)
  }

  /** The fetch of `keys[i]` failed with `e` and every earlier one succeeded. */
  predicate FirstFailureAt(table: map<Int32, Result<PageResult>>, keys: seq<Int32>, i: int, e: ClientError) {
    && 0 <= i < |keys|
    && keys[i] in table && table[keys[i]] == Failure(e)
    && forall j :: 0 <= j < i ==> keys[j] in table && table[keys[j]].Success?
  }

  /** Awaiting the fetches key by key and merging each into `acc`: the first
      failed fetch in key order ends the merge with its failure. */
  function MergeInOrder(table: map<Int32, Result<PageResult>>, acc: PageResult, keys: seq<Int32>): (r: Result<PageResult>)
    requires forall i :: 0 <= i < |keys| ==> keys[i] in table
    ensures r.Success? <==> AllSucceeded(table, keys)
    ensures r.Failure? ==> exists i :: FirstFailureAt(table, keys, i, r.error)
    decreases |keys|
  {
    if |keys| == 0 then Success(acc)
    else
      match table[keys[0]]
      case Failure(e) =>
        assert FirstFailureAt(table, keys, 0, e);
        Failure(e)
      case Success(page) =>
        var r := MergeInOrder(table, Add(acc, page), keys[1..]);
        FirstFailureShift(table, keys, r);
        r
  }

  lemma FirstFailureShift(table: map<Int32, Result<PageResult>>, keys: seq<Int32>, r: Result<PageResult>)
    requires |keys| > 0 && keys[0] in table && table[keys[0]].Success?
    requires r.Failure? ==> exists i :: FirstFailureAt(table, keys[1..], i, r.error)
    ensures r.Failure? ==> exists i :: FirstFailureAt(table, keys, i, r.error)
  {
    if r.Failure? {
      var i :| FirstFailureAt(table, keys[1..], i, r.error);
      assert FirstFailureAt(table, keys, i + 1, r.error);
    }
  }

  /** When every fetch succeeded, the ordered merge is the fold of `Add` over
      the pages in key order. */
  lemma {:induction false} MergeInOrderPages(table: map<Int32, Result<PageResult>>, acc: PageResult, keys: seq<Int32>)
    requires AllSucceeded(table, keys)
    ensures MergeInOrder(table, acc, keys) == Success(MergeAll(acc, PagesOf(table, keys)))
    decreases |keys|
  {
    var pages := PagesOf(table, keys);
    if |keys| > 0 {
      MergeInOrderPages(table, Add(acc, pages[0]), keys[1..]);
      assert PagesOf(table, keys[1..]) == pages[1..];
    }
  }

  /** The cursor walk may stop: no next page, or the last page is known. */
  function CursorDone(p: PageResult): (b: bool)
    ensures !b <==> p.nextPage.Some? && p.lastPage.None?
  {
    p.nextPage.None? || p.lastPage.Some?
  }

  /** The `nextPage` walk: while a next page is announced and the last page
      is not, fetch the next page and merge it. Nothing in the client bounds
      the walk, so the model spends one unit of fuel per fetch. */
  function CursorWalk(fetch: PageFetch, acc: PageResult, fuel: nat): (r: Run)
    ensures CursorDone(acc) ==> r == Run(Success(acc), [])
    ensures r.outcome.Success? ==> CursorDone(r.outcome.value)
    ensures r.outcome.Success? ==> Items(acc) <= Items(r.outcome.value)
    ensures |r.requests| <= fuel
    ensures !CursorDone(acc) && fuel > 0 ==> |r.requests| > 0 && r.requests[0] == acc.nextPage.value
    ensures !CursorDone(acc) && fuel > 0 && fetch(acc.nextPage.value).Failure? ==>
      r == Run(fetch(acc.nextPage.value), [acc.nextPage.value])
    ensures !CursorDone(acc) && fuel == 0 ==> r == Run(Failure(CursorFuelExhausted), [])
    ensures r.outcome.Failure? ==>
      || r.outcome == Failure(CursorFuelExhausted)
      || (|r.requests| > 0 && fetch(r.requests[|r.requests| - 1]) == r.outcome)
    decreases fuel
  {
    if CursorDone(acc) then Run(Success(acc), [])
    else if fuel == 0 then Run(Failure(CursorFuelExhausted), [])
    else
      var next := acc.nextPage.value;
      match fetch(next)
      case Failure(e) => Run(Failure(e), [next])
      case Success(page) =>
        var rest := CursorWalk(fetch, Add(acc, page), fuel - 1);
        Run(rest.outcome, [next] + rest.requests)
  }

  /** A finished walk is not changed by more fuel. */
  lemma {:induction false} CursorFuelMonotone(fetch: PageFetch, acc: PageResult, fuel: nat, more: nat)
    requires CursorWalk(fetch, acc, fuel).outcome != Failure(CursorFuelExhausted)
    requires fuel <= more
    ensures CursorWalk(fetch, acc, more) == CursorWalk(fetch, acc, fuel)
    decreases fuel
  {
    if !CursorDone(acc) && fuel > 0 {
      match fetch(acc.nextPage.value) {
        case Failure(_) =>
        case Success(page) =>
          CursorFuelMonotone(fetch, Add(acc, page), fuel - 1, more - 1);
      }
    }
  }

  /** The cursor chain from `start`: fetching `start` gives `pages[0]`, each
      page but the last announces the next one and not the last page, and
      the last page ends the walk. */
  ghost predicate CursorChain(fetch: PageFetch, start: Uri, pages: seq<PageResult>) {
    && |pages| > 0
    && fetch(start) == Success(pages[0])
    && (forall i :: 0 <= i < |pages| - 1 ==>
          && !CursorDone(pages[i])
          && fetch(pages[i].nextPage.value) == Success(pages[i + 1]))
    && CursorDone(pages[|pages| - 1])
  }

  /** The URIs a walk along a cursor chain requests. */
  function ChainUris(start: Uri, pages: seq<PageResult>): (us: seq<Uri>)
    requires forall i :: 0 <= i < |pages| - 1 ==> pages[i].nextPage.Some?
    ensures |us| == |pages|
  {
    seq(|pages|, i requires 0 <= i < |pages| => if i == 0 then start else pages[i - 1].nextPage.value)
  }

  /** Along a chain of k pages the walk makes exactly k requests, one per
      link, and merges the k pages in chain order. */
  lemma {:induction false} CursorChainWalk(fetch: PageFetch, acc: PageResult, pages: seq<PageResult>, fuel: nat)
    requires !CursorDone(acc)
    requires CursorChain(fetch, acc.nextPage.value, pages)
    requires |pages| <= fuel
    ensures CursorWalk(fetch, acc, fuel)
         == Run(Success(MergeAll(acc, pages)), ChainUris(acc.nextPage.value, pages))
    decreases |pages|
  {
    var next := Add(acc, pages[0]);
    var rest := CursorWalk(fetch, next, fuel - 1);
    if |pages| == 1 {
      assert CursorDone(next);
      assert rest == Run(Success(next), []);
    } else {
      assert CursorChain(fetch, next.nextPage.value, pages[1..]);
      CursorChainWalk(fetch, next, pages[1..], fuel - 1);
      assert ChainUris(acc.nextPage.value, pages)
          == [acc.nextPage.value] + ChainUris(next.nextPage.value, pages[1..]);
    }
  }

  /** `GetPages(uri)`: page 1, then pages `pageNumber + 1 .. totalPages` of
      page 1's answer, all requested before any is awaited and merged in
      ascending page order, then the cursor walk. */
  function GetPages(fetch: PageFetch, uri: Uri, fuel: nat): (r: Run)
    ensures |r.requests| >= 1 && r.requests[0] == PageUri(uri, 1)
    ensures fetch(PageUri(uri, 1)).Failure? ==> r == Run(fetch(PageUri(uri, 1)), [PageUri(uri, 1)])
  {
    var first := PageUri(uri, 1);
    match fetch(first)
    case Failure(e) => Run(Failure(e), [first])
    case Success(p1) =>
      match BulkRange(p1)
      case Failure(e) => Run(Failure(e), [first])
      case Success(keys) =>
        var uris := PageUris(uri, keys);
        var table := Tabulate(Responses(fetch, uri, keys));
        match MergeInOrder(table, p1, keys)
        case Failure(e) => Run(Failure(e), [first] + uris)
        case Success(acc) =>
          var walk := CursorWalk(fetch, acc, fuel);
          Run(walk.outcome, [first] + uris + walk.requests)
  }

  /** The pages `p1` announces after itself, as the bulk phase would fetch them. */
  ghost predicate BulkPages(fetch: PageFetch, uri: Uri, p1: PageResult, pages: seq<PageResult>) {
    && |pages| == p1.totalPages - p1.pageNumber
    && forall i :: 0 <= i < |pages| ==>
         MinInt32 <= p1.pageNumber + 1 + i <= MaxInt32
         && fetch(PageUri(uri, (p1.pageNumber + 1 + i) as Int32)) == Success(pages[i])
  }

  /** The requests of the bulk phase ask for the pages of `keys`, in order. */
  lemma PageUrisNumbers(uri: Uri, keys: seq<Int32>)
    ensures forall i :: 0 <= i < |keys| ==> PageNumberOf(PageUris(uri, keys)[i]) == Some(keys[i] as int)
  {
    forall i | 0 <= i < |keys|
      ensures PageNumberOf(PageUris(uri, keys)[i]) == Some(keys[i] as int)
    {
      PageUriRoundTrip(uri, keys[i]);
    }
  }

  /** With the pages of the range in hand, the ordered merge of the bulk
      phase is the fold of `Add` over them. */
  lemma BulkMerge(fetch: PageFetch, uri: Uri, p1: PageResult, pages: seq<PageResult>)
    requires 0 <= p1.pageNumber <= p1.totalPages
    requires BulkPages(fetch, uri, p1, pages)
    ensures BulkRange(p1).Success?
    ensures var keys := BulkRange(p1).value;
      MergeInOrder(Tabulate(Responses(fetch, uri, keys)), p1, keys) == Success(MergeAll(p1, pages))
  {
    BulkKeys(p1);
    var keys := BulkRange(p1).value;
    var table := Tabulate(Responses(fetch, uri, keys));
    ResponsesTable(fetch, uri, keys);
    forall i | 0 <= i < |keys|
      ensures keys[i] in table && table[keys[i]] == Success(pages[i])
    {
      assert keys[i] == (p1.pageNumber + 1 + i) as Int32;
    }
    assert PagesOf(table, keys) == pages;
    MergeInOrderPages(table, p1, keys);
  }

  /** For a consistent page 1 the range is `pageNumber + 1 .. totalPages`. */
  lemma BulkKeys(p1: PageResult)
    requires 0 <= p1.pageNumber <= p1.totalPages
    ensures BulkRange(p1).Success?
    ensures |BulkRange(p1).value| == p1.totalPages - p1.pageNumber
    ensures forall i :: 0 <= i < |BulkRange(p1).value| ==> BulkRange(p1).value[i] as int == p1.pageNumber + 1 + i
  {
    if p1.pageNumber == MaxInt32 {
      assert Wrap32(p1.totalPages - p1.pageNumber) == 0;
    }
  }

  /** The table of the responses holds each key's fetch. */
  lemma ResponsesTable(fetch: PageFetch, uri: Uri, keys: seq<Int32>)
    requires Ascending(keys)
    ensures forall i :: 0 <= i < |keys| ==>
      keys[i] in Tabulate(Responses(fetch, uri, keys))
      && Tabulate(Responses(fetch, uri, keys))[keys[i]] == fetch(PageUri(uri, keys[i]))
  {
    var entries := Responses(fetch, uri, keys);
    var table := Tabulate(entries);
    forall i | 0 <= i < |keys|
      ensures keys[i] in table && table[keys[i]] == fetch(PageUri(uri, keys[i]))
    {
      assert entries[i] == (keys[i], fetch(PageUri(uri, keys[i])));
    }
  }

  /** The bulk phase requests exactly the pages `pageNumber + 1 .. totalPages`
      of page 1, that is `totalPages - pageNumber` requests; its result holds
      page 1's items followed by those pages' items in ascending page order,
      and the cursor walk continues from it. */
  lemma GetPagesBulk(fetch: PageFetch, uri: Uri, fuel: nat, p1: PageResult, pages: seq<PageResult>)
    requires fetch(PageUri(uri, 1)) == Success(p1)
    requires 0 <= p1.pageNumber <= p1.totalPages
    requires BulkPages(fetch, uri, p1, pages)
    ensures BulkRange(p1).Success?
    ensures |BulkRange(p1).value| == p1.totalPages - p1.pageNumber
    ensures |pages| > 0 ==> MergeAll(p1, pages).data == Some(Items(p1) + ConcatItems(pages))
    ensures var walk := CursorWalk(fetch, MergeAll(p1, pages), fuel);
      GetPages(fetch, uri, fuel)
        == Run(walk.outcome, [PageUri(uri, 1)] + PageUris(uri, BulkRange(p1).value) + walk.requests)
  {
    BulkMerge(fetch, uri, p1, pages);
    if |pages| > 0 {
      MergeAllItems(p1, pages);
    }
  }

  /** Each bulk request asks for its own page: the i-th one for page
      `pageNumber + 1 + i`. */
  lemma BulkRequestNumbers(p1: PageResult, uri: Uri)
    requires 0 <= p1.pageNumber <= p1.totalPages
    ensures BulkRange(p1).Success?
    ensures var keys := BulkRange(p1).value;
      forall i :: 0 <= i < |keys| ==> PageNumberOf(PageUris(uri, keys)[i]) == Some(p1.pageNumber + 1 + i)
  {
    PageUrisNumbers(uri, BulkRange(p1).value);
  }

  /** A failed page of the bulk phase: every page of the range has been
      requested, and the outcome is the failure of the first page in
      ascending order whose fetch failed, whichever failed first in time. */
  lemma GetPagesBulkFailure(fetch: PageFetch, uri: Uri, fuel: nat, p1: PageResult, i: int, e: ClientError)
    requires fetch(PageUri(uri, 1)) == Success(p1)
    requires BulkRange(p1).Success?
    requires var keys := BulkRange(p1).value;
      && 0 <= i < |keys|
      && fetch(PageUri(uri, keys[i])) == Failure(e)
      && forall j :: 0 <= j < i ==> fetch(PageUri(uri, keys[j])).Success?
    ensures GetPages(fetch, uri, fuel)
         == Run(Failure(e), [PageUri(uri, 1)] + PageUris(uri, BulkRange(p1).value))
  {
    var keys := BulkRange(p1).value;
    var table := Tabulate(Responses(fetch, uri, keys));
    ResponsesTable(fetch, uri, keys);
    assert FirstFailureAt(table, keys, i, e);
    var r := MergeInOrder(table, p1, keys);
    assert !AllSucceeded(table, keys);
    var i' :| FirstFailureAt(table, keys, i', r.error);
    FirstFailureUnique(table, keys, i, i', e, r.error);
  }

  /** The first failure in key order is one failure. */
  lemma FirstFailureUnique(table: map<Int32, Result<PageResult>>, keys: seq<Int32>, i: int, j: int, e: ClientError, d: ClientError)
    requires FirstFailureAt(table, keys, i, e) && FirstFailureAt(table, keys, j, d)
    ensures i == j && e == d
  {
  }

  /** When page 1 says it is the last page and announces no cursor, the
      result is page 1 itself and nothing else is requested. */
  lemma GetPagesSinglePage(fetch: PageFetch, uri: Uri, fuel: nat, p1: PageResult)
    requires fetch(PageUri(uri, 1)) == Success(p1)
    requires p1.pageNumber == p1.totalPages
    requires CursorDone(p1)
    ensures GetPages(fetch, uri, fuel) == Run(Success(p1), [PageUri(uri, 1)])
  {
    var keys := BulkRange(p1).value;
    assert keys == [];
    assert PageUris(uri, keys) == [];
  }

  /** When page 1 reports fewer pages than its own number, `Enumerable.Range`
      throws: the call fails after the first request and skips the cursor. */
  lemma GetPagesRangeError(fetch: PageFetch, uri: Uri, fuel: nat, p1: PageResult)
    requires fetch(PageUri(uri, 1)) == Success(p1)
    requires p1.totalPages < p1.pageNumber < MaxInt32
    ensures GetPages(fetch, uri, fuel).outcome.Failure?
    ensures GetPages(fetch, uri, fuel).outcome.error.RangeOutOfBounds?
    ensures GetPages(fetch, uri, fuel).requests == [PageUri(uri, 1)]
  {
  }

  /** `GetPages(endpoint)`: the collection at `endpoint` of the environment. */
  function GetCollection(isProd: bool, endpoint: string, fetch: PageFetch, fuel: nat): (r: Run)
    ensures |r.requests| >= 1 && r.requests[0] == PageUri(EndpointUri(isProd, endpoint), 1)
  {
    GetPages(fetch, EndpointUri(isProd, endpoint), fuel)
  }

  /** The first request of a collection getter: the collection's address,
      the filter query in front, page 1. */
  predicate FirstRequestFor(r: Run, isProd: bool, name: string, filter: Option<string>) {
    && |r.requests| >= 1
    && r.requests[0].address == Origin(isProd) + "/" + name
    && FilterQuery(filter) <= r.requests[0].query
    && PageNumberOf(r.requests[0]) == Some(1)
  }

  /** `GetProductsAsync`: the products, without filter. */
  function GetProducts(isProd: bool, fetch: PageFetch, fuel: nat): (r: Run)
    ensures FirstRequestFor(r, isProd, ProductsEndpoint, None)
  {
    FilteredFirstRequest(isProd, ProductsEndpoint, None, fetch, fuel);
    assert ProductsEndpoint + FilterQuery(None) == ProductsEndpoint;
    GetCollection(isProd, ProductsEndpoint, fetch, fuel)
  }

  /** `GetAccountsAsync`: the accounts, filtered. */
  function GetAccounts(isProd: bool, filter: Option<string>, fetch: PageFetch, fuel: nat): (r: Run)
    ensures FirstRequestFor(r, isProd, AccountsEndpoint, filter)
  {
    FilteredFirstRequest(isProd, AccountsEndpoint, filter, fetch, fuel);
    GetCollection(isProd, AccountsEndpoint + FilterQuery(filter), fetch, fuel)
  }

  /** `GetSubscriptionsAsync`: the subscriptions, filtered. */
  function GetSubscriptions(isProd: bool, filter: Option<string>, fetch: PageFetch, fuel: nat): (r: Run)
    ensures FirstRequestFor(r, isProd, SubscriptionsEndpoint, filter)
  {
    FilteredFirstRequest(isProd, SubscriptionsEndpoint, filter, fetch, fuel);
    GetCollection(isProd, SubscriptionsEndpoint + FilterQuery(filter), fetch, fuel)
  }

  /** `GetUsagesAsync`: the usage records, filtered. */
  function GetUsages(isProd: bool, filter: Option<string>, fetch: PageFetch, fuel: nat): (r: Run)
    ensures FirstRequestFor(r, isProd, UsageEndpoint, filter)
  {
    FilteredFirstRequest(isProd, UsageEndpoint, filter, fetch, fuel);
    GetCollection(isProd, UsageEndpoint + FilterQuery(filter), fetch, fuel)
  }

  /** The first request for a filtered collection goes to the collection's
      address, keeps the filter query in front and asks for page 1 of size 100. */
  lemma FilteredFirstRequest(isProd: bool, name: string, filter: Option<string>, fetch: PageFetch, fuel: nat)
    requires '?' !in name
    ensures var u := GetCollection(isProd, name + FilterQuery(filter), fetch, fuel).requests[0];
      && u.address == Origin(isProd) + "/" + name
      && FilterQuery(filter) <= u.query
      && PageNumberOf(u) == Some(1)
      && PageSizeOf(u) == Some(100)
  {
    var base := EndpointUri(isProd, name + FilterQuery(filter));
    FilterRoundTrip(isProd, name, filter);
    PageUriRoundTrip(base, 1);
  }

  /** Page 1 reports page 1 of 3 with item a, pages 2 and 3 hold b and c
      and page 3 announces no next page: the aggregate holds a, b, c in
      that order after three requests. */
  lemma ThreePageScenario(fetch: PageFetch, uri: Uri, fuel: nat, p1: PageResult, p2: PageResult, p3: PageResult,
                          a: Json.Json, b: Json.Json, c: Json.Json)
    requires p1.pageNumber == 1 && p1.totalPages == 3
    requires p1.data == Some([a]) && p2.data == Some([b]) && p3.data == Some([c])
    requires p3.nextPage.None?
    requires fetch(PageUri(uri, 1)) == Success(p1)
    requires fetch(PageUri(uri, 2)) == Success(p2)
    requires fetch(PageUri(uri, 3)) == Success(p3)
    ensures GetPages(fetch, uri, fuel).outcome.Success?
    ensures GetPages(fetch, uri, fuel).outcome.value.data == Some([a, b, c])
    ensures |GetPages(fetch, uri, fuel).requests| == 3
  {
    TwoMorePages(fetch, uri, p1, p2, p3);
    GetPagesBulk(fetch, uri, fuel, p1, [p2, p3]);
    MergeTwo(p1, p2, p3);
    assert [a] + [b] + [c] == [a, b, c];
  }

  lemma TwoMorePages(fetch: PageFetch, uri: Uri, p1: PageResult, p2: PageResult, p3: PageResult)
    requires p1.pageNumber == 1 && p1.totalPages == 3
    requires fetch(PageUri(uri, 2)) == Success(p2)
    requires fetch(PageUri(uri, 3)) == Success(p3)
    ensures BulkPages(fetch, uri, p1, [p2, p3])
  {
    var pages := [p2, p3];
    assert fetch(PageUri(uri, (p1.pageNumber + 1 + 0) as Int32)) == Success(pages[0]);
    assert fetch(PageUri(uri, (p1.pageNumber + 1 + 1) as Int32)) == Success(pages[1]);
  }

  lemma MergeTwo(p1: PageResult, p2: PageResult, p3: PageResult)
    ensures MergeAll(p1, [p2, p3]).data == Some(Items(p1) + Items(p2) + Items(p3))
    ensures MergeAll(p1, [p2, p3]).nextPage == p3.nextPage
  {
    var m1 := Add(p1, p2);
    var m2 := Add(m1, p3);
    assert [p2, p3][1..] == [p3];
    assert [p3][1..] == [];
    assert MergeAll(p1, [p2, p3]) == MergeAll(m1, [p3]);
    assert MergeAll(m1, [p3]) == MergeAll(m2, []) == m2;
  }
}

=== FILE: results.dfy ===
/** Failure-carrying wrappers shared by every part of the client model.

    `Result` stands for a call that either returns a value or throws; the
    `ClientError` constructors name the exceptions the client raises or lets
    escape from its collaborators. */
module Results {

  /** A value that may be absent: a C# `null` reference or nullable value. */
  datatype Option<+T> = None | Some(value: T) {

    /** The value, or `default` when absent (C#'s `??`). */
    function GetOr(default: T): T {
      match this
      case Some(v) => v
      case None => default
    }
  }

  /** The outcome of a call that may throw. */
  datatype Result<+T> = Success(value: T) | Failure(error: ClientError) {

    predicate IsFailure() {
      Failure?
    }

    function PropagateFailure<U>(): Result<U>
      requires Failure?
    {
      Failure(error)
    }

    function Extract(): T
      requires Success?
    {
      value
    }
  }

  /** The exceptions that can end a client call. */
  datatype ClientError =
    /** Token issuance answered without a usable access token. */
    | AuthenticationError(message: string)
    /** A non-success HTTP status whose body was not object-shaped. */
    | HttpError(status: int)
    /** A body that the JSON parser rejected, or that had the wrong shape. */
    | JsonParseError
    /** A JSON value that cannot be converted to the requested type. */
    | InvalidCast(key: string)
    /** A cached `expires` text that is not a date. */
    | TimeFormatError(text: string)
    /** `Enumerable.Range` called with a negative or overflowing count. */
    | RangeOutOfBounds(start: int, count: int)
    /** The secret getter was set to null. */
    | SecretGetterMissing
    /** The default secret getter, which refuses every secret name. */
    | SecretNotImplemented(name: string)
    /** A failure reported by the transport or by another collaborator. */
    | TransportError(reason: string)
    /** The cursor walk used up its fuel before the server ended it. */
    | CursorFuelExhausted
}

=== FILE: text.dfy ===
/** Text helpers: C#'s decimal formatting of integers and its inverse, and the
    splitting and joining of strings around separators. */
module Text {
  import opened Results

  predicate IsDigit(c: char) {
    '0' <= c <= '9'
  }

  predicate AllDigits(s: string) {
    forall i :: 0 <= i < |s| ==> IsDigit(s[i])
  }

  function DigitChar(d: nat): (c: char)
    requires d < 10
    ensures IsDigit(c)
  {
    (d + '0' as int) as char
  }

  function DigitValue(c: char): (d: nat)
    requires IsDigit(c)
    ensures d < 10 && DigitChar(d) == c
  {
    c as int - '0' as int
  }

  /** Decimal digits of `n`, most significant first, with no leading zeros. */
  function NatToString(n: nat): (s: string)
    ensures |s| > 0 && AllDigits(s)
    decreases n
  {
    if n < 10 then [DigitChar(n)]
    else NatToString(n / 10) + [DigitChar(n % 10)]
  }

  /** `n.ToString()` for a C# integer: decimal digits after a '-' sign. */
  function IntToString(n: int): (s: string)
    ensures |s| > 0
    ensures forall i :: 0 <= i < |s| ==> IsDigit(s[i]) || s[i] == '-'
  {
    if n < 0 then "-" + NatToString(-n) else NatToString(n)
  }

  /** The number a non-empty string of decimal digits denotes. */
  function ParseNat(s: string): (r: Option<nat>)
    ensures r.Some? <==> |s| > 0 && AllDigits(s)
    decreases |s|
  {
    if |s| == 0 || !IsDigit(s[|s| - 1]) then None
    else if |s| == 1 then Some(DigitValue(s[0]))
    else
      match ParseNat(s[..|s| - 1])
      case None => None
      case Some(v) => Some(v * 10 + DigitValue(s[|s| - 1]))
  }

  /** The integer an optional minus sign followed by decimal digits denotes. */
  function ParseInt(s: string): Option<int>
  {
    if |s| > 0 && s[0] == '-' then
      match ParseNat(s[1..])
      case None => None
      case Some(v) => Some(0 - v as int)
    else
      match ParseNat(s)
      case None => None
      case Some(v) => Some(v as int)
  }

  lemma {:induction false} NatRoundTrip(n: nat)
    ensures ParseNat(NatToString(n)) == Some(n)
    decreases n
  {
    if n >= 10 {
      var s := NatToString(n);
      NatRoundTrip(n / 10);
      assert s[..|s| - 1] == NatToString(n / 10);
      assert s[|s| - 1] == DigitChar(n % 10);
    }
  }

  /** Reading back a formatted integer yields the integer. */
  lemma IntRoundTrip(n: int)
    ensures ParseInt(IntToString(n)) == Some(n)
  {
    if n < 0 {
      NatRoundTrip(-n);
      assert IntToString(n)[1..] == NatToString(-n);
    } else {
      NatRoundTrip(n);
    }
  }

  /** The pieces of `s` between occurrences of `sep` (C#'s `s.Split(sep)`). */
  function Split(s: string, sep: char): (parts: seq<string>)
    ensures |parts| >= 1
    ensures forall i :: 0 <= i < |parts| ==> sep !in parts[i]
    decreases |s|
  {
    if |s| == 0 then [""]
    else
      var rest := Split(s[1..], sep);
      if s[0] == sep then [""] + rest
      else [[s[0]] + rest[0]] + rest[1..]
  }

  /** A string without the separator is one piece. */
  lemma {:induction false} SplitWithoutSeparator(s: string, sep: char)
    requires sep !in s
    ensures Split(s, sep) == [s]
    decreases |s|
  {
    if |s| > 0 {
      assert sep !in s[1..];
      SplitWithoutSeparator(s[1..], sep);
      assert [s[0]] + s[1..] == s;
    }
  }

  /** Splitting around one separator splits each side independently. */
  lemma {:induction false} SplitAppend(a: string, b: string, sep: char)
    ensures Split(a + [sep] + b, sep) == Split(a, sep) + Split(b, sep)
    decreases |a|
  {
    if |a| == 0 {
      assert a + [sep] + b == [sep] + b;
      assert ([sep] + b)[1..] == b;
    } else {
      var s := a + [sep] + b;
      assert s[1..] == a[1..] + [sep] + b;
      SplitAppend(a[1..], b, sep);
    }
  }

  /** Two pieces around one separator. */
  lemma SplitPair(a: string, b: string, sep: char)
    requires sep !in a && sep !in b
    ensures Split(a + [sep] + b, sep) == [a, b]
  {
    SplitAppend(a, b, sep);
    SplitWithoutSeparator(a, sep);
    SplitWithoutSeparator(b, sep);
  }

  /** The summed length of `parts`. */
  function TotalLength(parts: seq<string>): nat
    decreases |parts|
  {
    if |parts| == 0 then 0 else |parts[0]| + TotalLength(parts[1..])
  }

  /** C#'s `string.Join(sep, parts)`: the parts in order with one separator
      between neighbours, none before the first or after the last. */
  function Join(sep: string, parts: seq<string>): (r: string)
    ensures |parts| == 0 ==> r == ""
    ensures |parts| > 0 ==> parts[0] <= r
    decreases |parts|
  {
    if |parts| == 0 then ""
    else if |parts| == 1 then parts[0]
    else parts[0] + sep + Join(sep, parts[1..])
  }

  /** Joining two non-empty runs of parts is joining each and putting one
      separator between them. */
  lemma {:induction false} JoinAppend(sep: string, xs: seq<string>, ys: seq<string>)
    requires |xs| > 0 && |ys| > 0
    ensures Join(sep, xs + ys) == Join(sep, xs) + sep + Join(sep, ys)
    decreases |xs|
  {
    var zs := xs + ys;
    var b := Join(sep, ys);
    if |xs| == 1 {
      assert zs[1..] == ys;
      assert Join(sep, zs) == xs[0] + sep + b;
    } else {
      var a := Join(sep, xs[1..]);
      JoinAppend(sep, xs[1..], ys);
      assert zs[1..] == xs[1..] + ys;
      assert Join(sep, zs) == xs[0] + sep + (a + sep + b);
      assert Join(sep, xs) == xs[0] + sep + a;
      assert xs[0] + sep + (a + sep + b) == (xs[0] + sep + a) + sep + b;
    }
  }

  /** A join is as long as its parts together plus one separator between
      each two neighbours. */
  lemma {:induction false} JoinLength(sep: string, parts: seq<string>)
    requires |parts| > 0
    ensures |Join(sep, parts)| == TotalLength(parts) + (|parts| - 1) * |sep|
    decreases |parts|
  {
    if |parts| > 1 {
      JoinLength(sep, parts[1..]);
      assert |Join(sep, parts)| == |parts[0]| + |sep| + |Join(sep, parts[1..])|;
      assert (|parts| - 1) * |sep| == |sep| + (|parts| - 2) * |sep|;
    }
  }
}

=== FILE: token.dfy ===
/** The bearer token: its decoding from the token endpoint's JSON answer, the
    names under which it is cached and its credentials are looked up, the
    pluggable cache hook and the issuer that exchanges credentials for it. */
module Tokens {
  import opened Results
  import opened Json
  import opened Uris
  import opened Api
  import opened Http
  import Text

  /** `YouniumToken`: every field may be null. */
  datatype Token = Token(
    accessToken: Option<string>,
    errors: Option<seq<Option<string>>>,
    refreshToken: Option<string>,
    expires: Option<string>)

  /** The token read from the JSON object the token endpoint answered with:
      each field from its own key, a missing key read as null. The fields
      are read in declaration order and the first one that cannot be
      converted fails the decoding. */
  function DecodeToken(o: JObject): (r: Result<Token>)
    ensures r.Success? <==>
      && StringValue(o, "accessToken").Success?
      && StringArrayValue(o, "errors").Success?
      && StringValue(o, "refreshToken").Success?
      && StringValue(o, "expires").Success?
    ensures r.Success? ==> "accessToken" !in o ==> r.value.accessToken.None?
    ensures r.Success? ==> "errors" !in o ==> r.value.errors.None?
    ensures r.Success? ==> "refreshToken" !in o ==> r.value.refreshToken.None?
    ensures r.Success? ==> "expires" !in o ==> r.value.expires.None?
    ensures r.Success? ==> r.value == Token(
      StringValue(o, "accessToken").value,
      StringArrayValue(o, "errors").value,
      StringValue(o, "refreshToken").value,
      StringValue(o, "expires").value)
    ensures r.Failure? && StringValue(o, "accessToken").Failure? ==> r.error == InvalidCast("accessToken")
  {
    var accessToken :- StringValue(o, "accessToken");
    var errors :- StringArrayValue(o, "errors");
    var refreshToken :- StringValue(o, "refreshToken");
    var expires :- StringValue(o, "expires");
    Success(Token(accessToken, errors, refreshToken, expires))
  }

  /** The JSON object the token endpoint would send for `t`: null fields
      are left out. */
  function EncodeToken(t: Token): JObject {
    var m0: JObject := map[];
    var m1 := if t.accessToken.Some? then m0["accessToken" := JStr(t.accessToken.value)] else m0;
    var m2 := if t.errors.Some? then m1["errors" := FromStrings(t.errors.value)] else m1;
    var m3 := if t.refreshToken.Some? then m2["refreshToken" := JStr(t.refreshToken.value)] else m2;
    if t.expires.Some? then m3["expires" := JStr(t.expires.value)] else m3
  }

  /** Decoding what the endpoint sends for a token gives that token back. */
  lemma DecodeEncode(t: Token)
    ensures DecodeToken(EncodeToken(t)) == Success(t)
  {
    var o := EncodeToken(t);
    if t.errors.Some? {
      StringArrayRoundTrip(o - {"errors"}, "errors", t.errors);
      assert o == (o - {"errors"})["errors" := FromStrings(t.errors.value)];
    }
  }

  /** Members other than the four token members play no part in decoding. */
  lemma DecodeIgnoresOtherMembers(o: JObject, key: string, v: Json)
    requires key !in {"accessToken", "errors", "refreshToken", "expires"}
    ensures DecodeToken(o[key := v]) == DecodeToken(o)
  {
    var o' := o[key := v];
    assert StringValue(o', "accessToken") == StringValue(o, "accessToken");
    assert StringArrayValue(o', "errors") == StringArrayValue(o, "errors");
    assert StringValue(o', "refreshToken") == StringValue(o, "refreshToken");
    assert StringValue(o', "expires") == StringValue(o, "expires");
  }

  /** A usable token: `string.IsNullOrEmpty` is false of its access token. */
  function HasAccessToken(t: Token): (b: bool)
    ensures b <==> t.accessToken.GetOr("") != ""
  {
    t.accessToken.Some? && t.accessToken.value != ""
  }

  /** The message of the failure raised for a token without access token:
      the errors joined by ", ", a null entry read as empty, or "No token"
      when the token carries no error list at all. */
  function FailureMessage(errors: Option<seq<Option<string>>>): (m: string)
    ensures errors.None? ==> m == "No token"
    ensures errors.Some? && |errors.value| == 0 ==> m == ""
    ensures errors.Some? && |errors.value| > 0 ==> errors.value[0].GetOr("") <= m
    ensures errors.Some? && |errors.value| == 1 ==> m == errors.value[0].GetOr("")
  {
    Text.Join(", ", Messages(errors))
  }

  /** The lines the failure message joins. */
  function Messages(errors: Option<seq<Option<string>>>): (lines: seq<string>)
    ensures errors.None? ==> lines == ["No token"]
    ensures errors.Some? ==> |lines| == |errors.value|
    ensures errors.Some? ==> forall i :: 0 <= i < |lines| ==> lines[i] == errors.value[i].GetOr("")
  {
    match errors
    case None => ["No token"]
    case Some(es) => seq(|es|, i requires 0 <= i < |es| => es[i].GetOr(""))
  }

  /** Every error is in the message, in order, each pair of neighbours
      separated by ", ": the message for two runs of errors is their two
      messages joined by ", ". */
  lemma FailureMessageAppend(xs: seq<Option<string>>, ys: seq<Option<string>>)
    requires |xs| > 0 && |ys| > 0
    ensures FailureMessage(Some(xs + ys)) == FailureMessage(Some(xs)) + ", " + FailureMessage(Some(ys))
  {
    assert Messages(Some(xs + ys)) == Messages(Some(xs)) + Messages(Some(ys));
    Text.JoinAppend(", ", Messages(Some(xs)), Messages(Some(ys)));
  }

  /** The answer `{accessToken: null, errors: ["bad secret"]}` decodes to a
      token without access token whose failure message is "bad secret". */
  lemma BadSecretMessage()
    ensures var o := map["accessToken" := JNull, "errors" := JArr([JStr("bad secret")])];
      DecodeToken(o) == Success(Token(None, Some([Some("bad secret")]), None, None))
    ensures !HasAccessToken(Token(None, Some([Some("bad secret")]), None, None))
    ensures FailureMessage(Some([Some("bad secret")])) == "bad secret"
  {
    var o := map["accessToken" := JNull, "errors" := JArr([JStr("bad secret")])];
    var items := [JStr("bad secret")];
    assert AsStrings(items[1..], "errors") == Success([]);
    assert AsString(items[0], "errors") == Success(Some("bad secret"));
    assert [Some("bad secret")] + [] == [Some("bad secret")];
    assert AsStrings(items, "errors") == Success([Some("bad secret")]);
    assert StringArrayValue(o, "errors") == Success(Some([Some("bad secret")]));
    assert StringValue(o, "accessToken") == Success(None);
    assert StringValue(o, "refreshToken") == Success(None);
    assert StringValue(o, "expires") == Success(None);
  }

  /** The cache key: "YouniumToken" and the environment name. */
  function CacheKey(isProd: bool): (k: string)
    ensures k == "YouniumTokenProd" || k == "YouniumTokenSandbox"
  {
    "YouniumToken" + EnvironmentName(isProd)
  }

  /** The time-to-live the client asks the cache hook for. */
  const CacheTtlMinutes: int := 30

  /** The name of the client-id secret of the environment. */
  function ClientIdSecretName(isProd: bool): (n: string)
    ensures isProd ==> n == "YouniumProdClientId"
    ensures !isProd ==> n == "YouniumSandboxClientId"
  {
    "Younium" + EnvironmentName(isProd) + "ClientId"
  }

  /** The name of the client-secret secret of the environment. */
  function ClientSecretName(isProd: bool): (n: string)
    ensures isProd ==> n == "YouniumProdSecret"
    ensures !isProd ==> n == "YouniumSandboxSecret"
  {
    "Younium" + EnvironmentName(isProd) + "Secret"
  }

  /** The environment is recoverable from its cache key and from each of its
      secret names, and the four secret names are pairwise distinct. */
  lemma NamesIdentifyEnvironment(isProd: bool, other: bool)
    ensures CacheKey(isProd) == CacheKey(other) <==> isProd == other
    ensures ClientIdSecretName(isProd) == ClientIdSecretName(other) <==> isProd == other
    ensures ClientSecretName(isProd) == ClientSecretName(other) <==> isProd == other
    ensures ClientIdSecretName(isProd) != ClientSecretName(other)
    ensures CacheKey(isProd)[|"YouniumToken"|..] == EnvironmentName(isProd)
  {
    var e1 := EnvironmentName(isProd);
    var e2 := EnvironmentName(other);
    assert ("YouniumToken" + e1)[12..] == e1;
    assert ("YouniumToken" + e2)[12..] == e2;
    assert ("Younium" + e1 + "ClientId")[7..|"Younium" + e1|] == e1;
    assert ("Younium" + e2 + "ClientId")[7..|"Younium" + e2|] == e2;
    assert ("Younium" + e1 + "Secret")[7..|"Younium" + e1|] == e1;
    assert ("Younium" + e2 + "Secret")[7..|"Younium" + e2|] == e2;
  }

  /** The token endpoint of the environment. */
  function TokenEndpoint(isProd: bool): (u: Uri)
    ensures UriText(u) == Origin(isProd) + "/auth/token"
  {
    ParseUri(Origin(isProd) + "/auth/token")
  }

  /** The secret provider: the value of a named secret. */
  type SecretGetter = string -> Result<string>

  /** The getter installed before any other: it refuses every name. */
  function DefaultSecretGetter(name: string): (r: Result<string>)
    ensures r == Failure(SecretNotImplemented(name))
  {
    Failure(SecretNotImplemented(name))
  }

  /** The request that exchanges the credentials for a token. */
  function TokenRequest(isProd: bool, clientId: string, secret: string): (req: Request)
    ensures req.verb == Post && req.target == TokenEndpoint(isProd)
    ensures req.body.Some? && req.body.value.JObj?
    ensures StringValue(req.body.value.fields, "clientId") == Success(Some(clientId))
    ensures StringValue(req.body.value.fields, "secret") == Success(Some(secret))
  {
    Request(Post, TokenEndpoint(isProd), Some(JObj(map["clientId" := JStr(clientId), "secret" := JStr(secret)])))
  }

  /** `GetJwtAsync`: read the client id, then the secret, post both to the
      token endpoint and decode the answer, which must be a JSON object. The
      status code of the answer is not looked at. A null getter fails. */
  function IssueToken(secrets: Option<SecretGetter>, transport: Transport, parse: JsonParser, isProd: bool): (r: Result<Token>)
    ensures secrets.None? ==> r == Failure(SecretGetterMissing)
    ensures secrets.Some? && secrets.value(ClientIdSecretName(isProd)).Failure? ==>
      r == Failure(secrets.value(ClientIdSecretName(isProd)).error)
    ensures r.Success? ==>
      && secrets.Some?
      && secrets.value(ClientIdSecretName(isProd)).Success?
      && secrets.value(ClientSecretName(isProd)).Success?
      && var req := TokenRequest(isProd, secrets.value(ClientIdSecretName(isProd)).value,
                                 secrets.value(ClientSecretName(isProd)).value);
         && transport(req).Success?
         && parse(transport(req).value.body).Some?
         && parse(transport(req).value.body).value.JObj?
         && DecodeToken(parse(transport(req).value.body).value.fields) == r
    ensures secrets.Some? && secrets.value(ClientIdSecretName(isProd)).Success? ==>
      var get := secrets.value;
      && (get(ClientSecretName(isProd)).Failure? ==> r == Failure(get(ClientSecretName(isProd)).error))
      && (get(ClientSecretName(isProd)).Success? ==>
            var req := TokenRequest(isProd, get(ClientIdSecretName(isProd)).value, get(ClientSecretName(isProd)).value);
            && (transport(req).Failure? ==> r == Failure(transport(req).error))
            && (transport(req).Success? ==>
                  var answer := parse(transport(req).value.body);
                  && (answer.Some? && answer.value.JObj? ==> r == DecodeToken(answer.value.fields))
                  && (answer.None? || !answer.value.JObj? ==> r == Failure(JsonParseError))))
  {
    match secrets
    case None => Failure(SecretGetterMissing)
    case Some(get) =>
      var clientId :- get(ClientIdSecretName(isProd));
      var secret :- get(ClientSecretName(isProd));
      var response :- transport(TokenRequest(isProd, clientId, secret));
      match parse(response.body)
      case Some(JObj(fields)) => DecodeToken(fields)
      case _ => Failure(JsonParseError)
  }

  /** When the token endpoint answers with the object encoding `t`, the
      issuer returns `t`, whatever the status code of the answer. */
  lemma IssueEncoded(get: SecretGetter, transport: Transport, parse: JsonParser, isProd: bool, t: Token)
    requires get(ClientIdSecretName(isProd)).Success? && get(ClientSecretName(isProd)).Success?
    requires var req := TokenRequest(isProd, get(ClientIdSecretName(isProd)).value, get(ClientSecretName(isProd)).value);
      transport(req).Success? && parse(transport(req).value.body) == Some(JObj(EncodeToken(t)))
    ensures IssueToken(Some(get), transport, parse, isProd) == Success(t)
  {
    DecodeEncode(t);
  }

  /** With the default getter installed, issuance fails on the client-id
      name of the environment before anything is sent. */
  lemma DefaultGetterFails(transport: Transport, parse: JsonParser, isProd: bool)
    ensures IssueToken(Some(DefaultSecretGetter), transport, parse, isProd)
         == Failure(SecretNotImplemented("Younium" + EnvironmentName(isProd) + "ClientId"))
  {
  }

  /** The cache hook: given a key and a time-to-live in minutes, either a
      cached outcome, or None to have the issuer called. */
  type CacheHook = (string, int) -> Option<Result<Token>>

  /** `GetCachedOrCallDummy`: never supplies a cached outcome. */
  function PassthroughHook(key: string, ttlMinutes: int): (r: Option<Result<Token>>)
    ensures r.None?
  {
    None
  }

  /** An outcome and whether the issuer was called to produce it. */
  datatype Fetched = Fetched(result: Result<Token>, issuerCalled: bool)

  /** `GetCachedOrCall(key, doFetch, ttl)`: the hook's outcome, or the
      issuer's when the hook has none. */
  function GetCachedOrCall(hook: CacheHook, key: string, ttlMinutes: int, issue: Result<Token>): (f: Fetched)
    ensures f.issuerCalled <==> hook(key, ttlMinutes).None?
    ensures f.issuerCalled ==> f.result == issue
    ensures !f.issuerCalled ==> f.result == hook(key, ttlMinutes).value
  {
    match hook(key, ttlMinutes)
    case Some(cached) => Fetched(cached, false)
    case None => Fetched(issue, true)
  }

  /** The default hook calls the issuer exactly once and returns its outcome
      unchanged, whatever the key and the time-to-live. */
  lemma PassthroughCallsIssuer(key: string, ttlMinutes: int, issue: Result<Token>)
    ensures GetCachedOrCall(PassthroughHook, key, ttlMinutes, issue) == Fetched(issue, true)
  {
  }

  /** `GetJwtTokenCached`: the hook asked under the environment's cache key
      with a 30-minute time-to-live, the issuer behind it. */
  function GetJwtTokenCached(hook: CacheHook, secrets: Option<SecretGetter>, transport: Transport,
                             parse: JsonParser, isProd: bool): (f: Fetched)
    ensures f.issuerCalled <==> hook(CacheKey(isProd), CacheTtlMinutes).None?
    ensures f.issuerCalled ==> f.result == IssueToken(secrets, transport, parse, isProd)
    ensures !f.issuerCalled ==> f.result == hook(CacheKey(isProd), CacheTtlMinutes).value
  {
    GetCachedOrCall(hook, CacheKey(isProd), CacheTtlMinutes, IssueToken(secrets, transport, parse, isProd))
  }
}

=== FILE: token_cache.dfy ===
/** `EnsureHttpTokenAsync`: the client's own one-token cache in front of the
    cache hook and the issuer. */
module TokenCache {
  import opened Results
  import opened Json
  import opened Http
  import opened Tokens

  /** Reads an expiry text as minutes on the client's clock; None when the
      text is not a date. */
  type TimeParser = string -> Option<int>

  /** What a token refresh needs from outside the model: the date reader,
      the JSON reader, the secret getter, the cache hook and the network. */
  datatype Services = Services(
    parseTime: TimeParser,
    parseJson: JsonParser,
    secrets: Option<SecretGetter>,
    hook: CacheHook,
    transport: Transport)

  /** The cached token is kept while its expiry lies more than this many
      minutes ahead. */
  const FreshnessMarginMinutes: int := 30

  /** How the cached token stands at time `now`. */
  datatype Standing = Fresh | Stale | Unreadable(text: string)

  function CacheStanding(cache: Option<Token>, now: int, parseTime: TimeParser): (st: Standing)
    ensures st.Fresh? <==>
      && cache.Some? && cache.value.expires.Some?
      && parseTime(cache.value.expires.value).Some?
      && now + FreshnessMarginMinutes < parseTime(cache.value.expires.value).value
    ensures st.Unreadable? <==>
      cache.Some? && cache.value.expires.Some? && parseTime(cache.value.expires.value).None?
    ensures st.Unreadable? ==> st.text == cache.value.expires.value
  {
    if cache.None? || cache.value.expires.None? then Stale
    else
      match parseTime(cache.value.expires.value)
      case None => Unreadable(cache.value.expires.value)
      case Some(at) => if now + FreshnessMarginMinutes < at then Fresh else Stale
  }

  /** One call: the cache afterwards, the token or the failure, and whether
      the issuer behind the cache hook was called. */
  datatype TokenStep = TokenStep(cache: Option<Token>, outcome: Result<Token>, issuerCalled: bool)

  /** A token is fetched through the hook unless the cached one is fresh or
      its expiry cannot be read. A fetched token replaces the cached one
      before it is checked, so a token without access token is kept although
      the call fails. A failed fetch leaves the cache as it was. */
  function EnsureToken(cache: Option<Token>, now: int, s: Services, isProd: bool): (r: TokenStep)
    ensures CacheStanding(cache, now, s.parseTime).Fresh? ==> r == TokenStep(cache, Success(cache.value), false)
    ensures CacheStanding(cache, now, s.parseTime).Unreadable? ==>
      r == TokenStep(cache, Failure(TimeFormatError(cache.value.expires.value)), false)
    ensures CacheStanding(cache, now, s.parseTime).Stale? ==>
      r.issuerCalled == GetJwtTokenCached(s.hook, s.secrets, s.transport, s.parseJson, isProd).issuerCalled
    ensures r.outcome.Success? ==> r.cache == Some(r.outcome.value)
    ensures r.cache != cache ==>
      && r.cache.Some?
      && GetJwtTokenCached(s.hook, s.secrets, s.transport, s.parseJson, isProd).result == Success(r.cache.value)
    ensures CacheStanding(cache, now, s.parseTime).Stale? && r.outcome.Success? ==> HasAccessToken(r.outcome.value)
    ensures CacheStanding(cache, now, s.parseTime).Stale? && r.cache.Some? && !HasAccessToken(r.cache.value) && r.cache != cache ==>
      r.outcome == Failure(AuthenticationError(FailureMessage(r.cache.value.errors)))
    ensures CacheStanding(cache, now, s.parseTime).Stale? ==>
      var f := GetJwtTokenCached(s.hook, s.secrets, s.transport, s.parseJson, isProd);
      && (f.result.Success? ==> r.cache == Some(f.result.value))
      && (f.result.Success? && HasAccessToken(f.result.value) ==> r.outcome == f.result)
      && (f.result.Success? && !HasAccessToken(f.result.value) ==>
            r.outcome == Failure(AuthenticationError(FailureMessage(f.result.value.errors))))
      && (f.result.Failure? ==> r.cache == cache && r.outcome == f.result)
  {
    match CacheStanding(cache, now, s.parseTime)
    case Fresh => TokenStep(cache, Success(cache.value), false)
    case Unreadable(text) => TokenStep(cache, Failure(TimeFormatError(text)), false)
    case Stale =>
      var f := GetJwtTokenCached(s.hook, s.secrets, s.transport, s.parseJson, isProd);
      match f.result
      case Failure(e) => TokenStep(cache, Failure(e), f.issuerCalled)
      case Success(t) =>
        if HasAccessToken(t) then TokenStep(Some(t), Success(t), f.issuerCalled)
        else TokenStep(Some(t), Failure(AuthenticationError(FailureMessage(t.errors))), f.issuerCalled)
  }

  /** With the default hook the issuer is called exactly when the cached
      token is neither fresh nor carries an unreadable expiry: in particular
      when nothing is cached or the token has no expiry. */
  lemma PassthroughRefreshesIffStale(cache: Option<Token>, now: int, s: Services, isProd: bool)
    requires forall key, ttl :: s.hook(key, ttl) == PassthroughHook(key, ttl)
    ensures EnsureToken(cache, now, s, isProd).issuerCalled <==> CacheStanding(cache, now, s.parseTime).Stale?
    ensures cache.None? || cache.value.expires.None? ==> EnsureToken(cache, now, s, isProd).issuerCalled
  {
    PassthroughCallsIssuer(CacheKey(isProd), CacheTtlMinutes, IssueToken(s.secrets, s.transport, s.parseJson, isProd));
  }

  /** A token expiring exactly 30 minutes from now is no longer fresh: it is
      refreshed, with the issuer called when the hook has nothing. */
  lemma BoundaryRefreshes(t: Token, now: int, s: Services, isProd: bool)
    requires t.expires.Some? && s.parseTime(t.expires.value) == Some(now + 30)
    requires s.hook(CacheKey(isProd), CacheTtlMinutes).None?
    ensures EnsureToken(Some(t), now, s, isProd).issuerCalled
  {
  }

  /** After a refresh that yields a token whose expiry lies more than 30
      minutes after `later`, a call at `later` returns that same token from
      the client's cache without calling the issuer, whatever the services. */
  lemma RefreshedTokenServedFromCache(cache: Option<Token>, now: int, later: int, s: Services, s2: Services, isProd: bool)
    requires EnsureToken(cache, now, s, isProd).cache.Some?
    requires var t := EnsureToken(cache, now, s, isProd).cache.value;
      && t.expires.Some?
      && s2.parseTime(t.expires.value).Some?
      && later + 30 < s2.parseTime(t.expires.value).value
    ensures var first := EnsureToken(cache, now, s, isProd);
      EnsureToken(first.cache, later, s2, isProd) == TokenStep(first.cache, Success(first.cache.value), false)
  {
  }

  /** A token that fails the access-token check but carries a far expiry is
      kept: the call that fetched it fails, the next call returns it as the
      valid token without asking the issuer. */
  lemma FailedTokenServedLater(now: int, s: Services, isProd: bool, t: Token)
    requires GetJwtTokenCached(s.hook, s.secrets, s.transport, s.parseJson, isProd).result == Success(t)
    requires !HasAccessToken(t)
    requires t.expires.Some? && s.parseTime(t.expires.value).Some?
    requires now + 30 < s.parseTime(t.expires.value).value
    ensures EnsureToken(None, now, s, isProd).outcome == Failure(AuthenticationError(FailureMessage(t.errors)))
    ensures EnsureToken(EnsureToken(None, now, s, isProd).cache, now, s, isProd) == TokenStep(Some(t), Success(t), false)
  {
  }

  /** The token endpoint rejecting the credentials: with nothing cached and
      the default hook, the issuer is called, the answer's error becomes the
      failure message and the rejected token is cached. */
  lemma BadSecretScenario(now: int, s: Services, isProd: bool, clientId: string, secret: string, response: Response)
    requires forall key, ttl :: s.hook(key, ttl) == PassthroughHook(key, ttl)
    requires s.secrets.Some?
    requires s.secrets.value(ClientIdSecretName(isProd)) == Success(clientId)
    requires s.secrets.value(ClientSecretName(isProd)) == Success(secret)
    requires s.transport(TokenRequest(isProd, clientId, secret)) == Success(response)
    requires s.parseJson(response.body) == Some(JObj(map["accessToken" := JNull, "errors" := JArr([JStr("bad secret")])]))
    ensures EnsureToken(None, now, s, isProd)
         == TokenStep(Some(Token(None, Some([Some("bad secret")]), None, None)), Failure(AuthenticationError("bad secret")), true)
  {
    BadSecretMessage();
  }
}

=== FILE: uris.dfy ===
/** URIs as the client builds them: an address (scheme, host and path) and the
    query component as `System.UriBuilder` exposes it. */
module Uris {
  import opened Results
  import opened Numbers
  import Text

  /** The query text of a `UriBuilder`: empty, or starting with '?'. */
  type Query = q: string | q == [] || q[0] == '?' witness []

  datatype Uri = Uri(address: string, query: Query)

  /** The text a URI is written as. */
  function UriText(u: Uri): string {
    u.address + u.query
  }

  /** The position of the first `c` in `s`, or `|s|` when there is none. */
  function FirstIndex(s: string, c: char): (i: nat)
    ensures i <= |s|
    ensures c !in s[..i]
    ensures i < |s| ==> s[i] == c
    decreases |s|
  {
    if |s| == 0 || s[0] == c then 0
    else
      var j := FirstIndex(s[1..], c);
      assert s[..j + 1] == [s[0]] + s[1..][..j];
      j + 1
  }

  /** `new Uri(text)`: the query starts at the first '?'. */
  function ParseUri(s: string): (u: Uri)
    ensures UriText(u) == s
    ensures '?' !in u.address
  {
    var i := FirstIndex(s, '?');
    assert s[..i] + s[i..] == s;
    Uri(s[..i], s[i..])
  }

  /** Writing a URI whose address has no '?' and parsing it again gives it back. */
  lemma ParseUriText(u: Uri)
    requires '?' !in u.address
    ensures ParseUri(UriText(u)) == u
  {
    var s := UriText(u);
    var i := FirstIndex(s, '?');
    assert forall k :: 0 <= k < |u.address| ==> s[k] == u.address[k];
    assert u.query != [] ==> s[|u.address|] == '?' && s[..i + 1][|u.address|] == '?';
    assert i == |u.address|;
    assert s[..i] == u.address;
  }

  /** The `UriBuilder.Query` setter: a non-empty value gains a leading '?'
      unless it already has one. */
  function SetQuery(v: string): (q: Query)
    ensures v == [] ==> q == []
    ensures v != [] && v[0] == '?' ==> q == v
    ensures v != [] && v[0] != '?' ==> q == "?" + v
  {
    if v == [] || v[0] == '?' then v else "?" + v
  }

  const PageSize: int := 100

  const PageNumberName: string := "pageNumber"
  const PageSizeName: string := "pageSize"

  /** One `name=value` query parameter. */
  function Parameter(name: string, value: string): string {
    name + "=" + value
  }

  function PageNumberParameter(n: Int32): string {
    Parameter(PageNumberName, Text.IntToString(n))
  }

  function PageSizeParameter(): string {
    Parameter(PageSizeName, Text.IntToString(PageSize))
  }

  /** The two parameters that select one page. */
  function PageParameters(n: Int32): string {
    PageNumberParameter(n) + "&" + PageSizeParameter()
  }

  /** The query of the URI for page `n`: '&' is inserted only when the builder's
      query already holds a '?', then the page parameters are appended. */
  function PageQuery(q: Query, n: Int32): (r: Query)
    ensures q <= r
    ensures q == [] ==> r == "?" + PageParameters(n)
    ensures q != [] ==> r == q + "&" + PageParameters(n)
  {
    var q' := if '?' in q then SetQuery(q + "&") else q;
    SetQuery(q' + PageParameters(n))
  }

  /** `GetPageUri(src, n)`: the same address with the page query. */
  function PageUri(u: Uri, n: Int32): (r: Uri)
    ensures r.address == u.address
    ensures u.query <= r.query
  {
    u.(query := PageQuery(u.query, n))
  }

  /** The '&'-separated parameters of a query. */
  function Parameters(q: Query): seq<string> {
    if q == [] then [] else Text.Split(q[1..], '&')
  }

  /** The value of the last parameter called `name`. */
  function ParameterValue(ps: seq<string>, name: string): (r: Option<string>)
    decreases |ps|
  {
    if |ps| == 0 then None
    else
      var p := ps[|ps| - 1];
      var prefix := name + "=";
      if prefix <= p then Some(p[|prefix|..]) else ParameterValue(ps[..|ps| - 1], name)
  }

  /** The page number a URI asks for. */
  function PageNumberOf(u: Uri): Option<int> {
    match ParameterValue(Parameters(u.query), PageNumberName)
    case None => None
    case Some(v) => Text.ParseInt(v)
  }

  /** The page size a URI asks for. */
  function PageSizeOf(u: Uri): Option<int> {
    match ParameterValue(Parameters(u.query), PageSizeName)
    case None => None
    case Some(v) => Text.ParseInt(v)
  }

  lemma PageParametersSplit(n: Int32)
    ensures Text.Split(PageParameters(n), '&') == [PageNumberParameter(n), PageSizeParameter()]
  {
    NoSeparatorInParameter(PageNumberName, Text.IntToString(n));
    NoSeparatorInParameter(PageSizeName, Text.IntToString(PageSize));
    Text.SplitPair(PageNumberParameter(n), PageSizeParameter(), '&');
  }

  lemma NoSeparatorInParameter(name: string, digits: string)
    requires '&' !in name
    requires forall i :: 0 <= i < |digits| ==> Text.IsDigit(digits[i]) || digits[i] == '-'
    ensures '&' !in Parameter(name, digits)
  {
    assert '&' !in digits;
  }

  /** The page query keeps every parameter of the original query, in order,
      and adds exactly the page number and the page size after them. */
  lemma PageQueryParameters(q: Query, n: Int32)
    ensures Parameters(PageQuery(q, n)) == Parameters(q) + [PageNumberParameter(n), PageSizeParameter()]
  {
    PageParametersSplit(n);
    var r := PageQuery(q, n);
    if q == [] {
      assert r[1..] == PageParameters(n);
    } else {
      assert r[1..] == q[1..] + ['&'] + PageParameters(n);
      Text.SplitAppend(q[1..], PageParameters(n), '&');
    }
  }

  /** Reading the page URI back recovers the address, the page number and the
      fixed page size of 100. */
  lemma PageUriRoundTrip(u: Uri, n: Int32)
    ensures PageUri(u, n).address == u.address
    ensures PageNumberOf(PageUri(u, n)) == Some(n)
    ensures PageSizeOf(PageUri(u, n)) == Some(100)
  {
    var ps := Parameters(PageUri(u, n).query);
    PageQueryParameters(u.query, n);
    assert PageNumberName[4] != PageSizeName[4];
    LastParameters(Parameters(u.query), PageNumberName, Text.IntToString(n), PageSizeName, Text.IntToString(PageSize));
    Text.IntRoundTrip(n);
    Text.IntRoundTrip(PageSize);
  }

  /** Among trailing parameters `a=x&b=y` with distinct names, the value of
      each name is its own. */
  lemma LastParameters(ps: seq<string>, a: string, x: string, b: string, y: string)
    requires |a| > 4 && |b| > 4 && a[4] != b[4]
    ensures ParameterValue(ps + [Parameter(a, x), Parameter(b, y)], a) == Some(x)
    ensures ParameterValue(ps + [Parameter(a, x), Parameter(b, y)], b) == Some(y)
  {
    var all := ps + [Parameter(a, x), Parameter(b, y)];
    assert all[..|all| - 1] == ps + [Parameter(a, x)];
    assert Parameter(b, y)[4] == b[4];
    assert !(a + "=" <= Parameter(b, y));
    assert Parameter(a, x)[|a + "="|..] == x;
    assert Parameter(b, y)[|b + "="|..] == y;
  }
}
